=== FILE: README.md ===
# Validator rule engine in Dafny

A model of the PHP form validator in `trunk/Validator.class.php`. Its two classes are:

- **`Validator`** holds the configuration: per-field ordered rule sets, a message catalog, custom rules and an invalid handler. It also holds the state of the last run: the submitted values and the error map.
- **`ValidatorMethodCollection`** is the rule registry. It holds the built-in rules and falls through `__call` to registered functions.

Every operation is a pure function from the old validator to the new one.

Modules, in dependency order:

- `Common` (`common.dfy`): `Option` and `Result`. An exception becomes `Err` with the exception's message.
- `PhpArray` (`php_array.dfy`): PHP arrays with string keys, modelled as ordered association lists. `$a + $b` is modelled by `Union`: the left operand wins and order is kept.
- `PhpText` (`php_text.dfy`): `trim`, `strlen`, an integer's decimal text, the integer subset of `is_numeric`, and `intval` on strings.
  - Field values are Unicode text. PHP sees them as the bytes of their UTF-8 encoding, so `strlen` and string offsets count UTF-8 bytes (`PhpText.ByteLength`), not characters.
- `Values` (`values.dfy`): field values (string, integer, list of checked boxes) and rule parameters. It also defines PHP's `empty()` and string conversion.
- `Methods` (`methods.dfy`): the built-in rules `required`, `min`, `max`, `minlength`, `maxlength`, `range`, `rangelength` and `equalTo`, plus dispatch through `__call`.
  - Outside input is an explicit `Context`:
    - the request map standing for `$_POST`;
    - the global functions that custom rules name;
    - the regular-expression rules `date`, `digits`, `email` and `url`, which stay uninterpreted.
- `Messages` (`messages.dfy`): the catalog, the precedence of `getMessage`, and `{n}` placeholder substitution.
- `Validation` (`validator.dfy`):
  - the constructor, `addClassRules`, `addMethod` and `extendMessages`;
  - `optional` and `element`;
  - `validate`;
  - the readers `valid`, `numberOfInvalids` and `showValid`.
- `Fixtures` (`fixtures.dfy`): the example inputs of the collection's test page, with the verdicts the model gives.

`extendMessages` computes `$m + $this->asMessage`, so on a shared key the new entry wins over the existing one. `Messages.Extend` models that.

Where the code and its comments or fixtures disagree, the model follows the code:

- **`required` with a selector**: the comment on line 402 says the field is not required when the referenced field is empty. The code lets the value pass when the referenced field is absent **or non-empty**. `Methods.Required` models the code.
- **`min` and `max`**: the test page expects `max` to pass when the value is at most the bound, and `min` when it is at least the bound. The code does the reverse: `max` checks `$sValue >= $iMax` and `min` checks `$sValue <= $iMin`. `Fixtures.MinMaxAsWritten` states the code's verdicts on the page's inputs.

## Model

| member | source | states |
|---|---|---|
| PhpArray.Union | trunk/Validator.class.php:131 | `$new + $old` keeps every new pair in order, then appends the old pairs whose key the new part lacks. The appended pairs are exactly the pairs of `$old` at the positions `Kept` lists, in `$old`'s order. Lookups see the new pairs first. The keys are the union of both key sets. Two well-formed arrays give a well-formed array. |
| PhpArray.Kept | trunk/Validator.class.php:131 | The positions of `$old` that survive `$new + $old` are listed in increasing order. They are every position whose key `$new` lacks, and no other. |
| PhpArray.WithoutKept | trunk/Validator.class.php:131 | Filtering out the keys of `$new` keeps exactly the pairs at the positions `Kept` lists, in that order. |
| PhpArray.UnionAbsorbs | trunk/Validator.class.php:126-132 | Prepending the same declaration twice gives the same rules as prepending it once, so listing a field twice in one `addClassRules` call is harmless. |
| PhpText.Trim | trunk/Validator.class.php:411 | `trim` returns the slice of the input from its first non-trim character to its last. Everything cut off is a trim character. The result is empty exactly when every character is one. |
| PhpText.ByteLength | trunk/Validator.class.php:373 | `strlen` of a text is its UTF-8 byte count: at least its number of characters and at most four times that. |
| PhpText.AsciiByteLength | trunk/Validator.class.php:373 | On ASCII text the byte count equals the character count. |
| PhpText.NonAsciiByteLength | trunk/Validator.class.php:373 | A single character outside ASCII makes the byte count exceed the character count. |
| PhpText.Decimal | trunk/Validator.class.php:411 | An integer converted to a string is numeric text that reads back as the same integer. |
| PhpText.DigitsRoundTrip | trunk/Validator.class.php:183 | Reading back the decimal digits of `n` gives `n`, which is what lets a placeholder `{n}` denote index `n`. |
| PhpText.Intval | trunk/Validator.class.php:348 | `intval` of text without a digit is 0, and a negative result needs a `-` right after the leading white space. |
| PhpText.IntvalIgnoresTrailing | trunk/Validator.class.php:348 | `intval` reads only the leading number: a numeric text followed by anything that does not start with a digit gives the number. |
| PhpText.IntvalOfNumeric | trunk/Validator.class.php:348 | On a numeric string, `intval` gives the number the string denotes. |
| Values.Empty | trunk/Validator.class.php:151 | `empty()` holds exactly for "", "0", 0 and the empty list; every other value is non-empty. |
| Values.EmptyAgreesWithText | trunk/Validator.class.php:151 | `empty` gives the same answer for an integer and for its decimal text. |
| Methods.SelectorTarget | trunk/Validator.class.php:399 | The field named by a `#id...` selector is the text after `#` up to the first `:` or `[`. Without a leading `#` the capture is empty. |
| Methods.Required | trunk/Validator.class.php:394-413 | Three parameter modes:<br>• With a null or non-string, non-callable parameter, the rule passes iff `trim(v)` is not empty.<br>• With a callback that returns false it always passes; otherwise it uses the trim check.<br>• With a selector it passes when the referenced request field is absent or non-empty; otherwise it uses the trim check. |
| Methods.BlankIsNotFilled | trunk/Validator.class.php:411-412 | A string made only of white space never passes the unconditional `required`. |
| Methods.ContentIsFilled | trunk/Validator.class.php:411-412 | A string holding any character other than white space or `0` passes the unconditional `required`. |
| Methods.IntFilledIffNonZero | trunk/Validator.class.php:411-412 | An integer passes the unconditional `required` exactly when it is not 0. |
| Methods.ListIsNotFilled | trunk/Validator.class.php:411-412 | A list of checked boxes never passes the unconditional `required`, because `trim` of an array is null. |
| Methods.Max | trunk/Validator.class.php:328-330 | For an integer or numeric-string bound, `max` passes exactly when the value is numeric and at least the bound. A list or non-numeric string value fails, and so does a bound that is not a number. |
| Methods.Min | trunk/Validator.class.php:340-342 | For an integer or numeric-string bound, `min` passes exactly when the value is numeric and at most the bound. A list or non-numeric string value fails, and so does a bound that is not a number. |
| Methods.MinMaxCover | trunk/Validator.class.php:328-342 | For a numeric value and bound, one of `min` and `max` always passes. Both pass only when value and bound are equal. |
| Methods.HasOffset | trunk/Validator.class.php:331-336 | `isset($v{$k})`: on a string, the converted offset lies in `[0, strlen)` in bytes. On a list, the converted index lies in `[0, count)`. An integer value has no offsets. Array, callable and non-numeric string keys find nothing, and so does null on a list. |
| Methods.OffsetsHaveNoGaps | trunk/Validator.class.php:331-336 | Where offset k exists, every offset from 0 to k exists. So `minlength` means "at least" and `maxlength` means "at most". |
| Methods.Decrement | trunk/Validator.class.php:335 | `--$iLength` lowers an integer or numeric string by one. Null, booleans, arrays and callables stay unchanged. |
| Methods.MinLength | trunk/Validator.class.php:334-336 | For an integer or numeric-string bound n, `minlength n` passes on a string exactly when `1 <= n <= strlen` in bytes, and on a list exactly when `1 <= n <= count`. It fails on an integer value, and for an array bound (a bare declaration) or a callable bound. A null bound asks for one byte; `true` asks for two. |
| Methods.MaxLength | trunk/Validator.class.php:331-333 | For an integer or numeric-string bound n >= 0, `maxlength n` passes on a string exactly when its byte length is at most n. For an integer or canonical integer text n >= 0, it passes on a list exactly when the list has at most n elements; other text, such as "03", is a string key that no list has. It passes for a negative integer or numeric-string bound, on an integer value, and for a non-numeric string, array or callable bound, since `isset` then finds no offset. |
| Methods.MinLengthNegatesMaxLength | trunk/Validator.class.php:331-336 | For every value and integer n, `minlength n+1` is exactly the negation of `maxlength n`. |
| Methods.TextBoundActsAsNumber | trunk/Validator.class.php:331-336 | A bound written as an integer's decimal text gives the same verdicts as the integer, for both length rules. |
| Methods.RangeLength | trunk/Validator.class.php:362-376 | `rangelength [lo, hi]` passes exactly when `lo <= count <= hi`. The count is the list length, the number itself for numeric values, and the UTF-8 byte length of any other string. Bounds that are not numbers make it fail. |
| Methods.Range | trunk/Validator.class.php:347-349 | `range [lo, hi]` passes exactly when `lo <= intval(v) <= hi`. |
| Methods.RangeAgreesOnNumbers | trunk/Validator.class.php:347-376 | On integers and numeric strings, `range` and `rangelength` give the same verdict. |
| Methods.EqualTo | trunk/Validator.class.php:319-324 | `equalTo "#f"` passes exactly when the value's text equals the text of request field `f`. An absent field compares as "", and a list field fails. A list value fails. An array parameter that yields no key compares with "". A callable parameter fails. |
| Methods.IntegerReferenceReadsItsText | trunk/Validator.class.php:319-324 | An integer parameter reads the request field named by its decimal text. |
| Methods.EqualToSymmetric | trunk/Validator.class.php:319-324 | Two request fields that reference each other pass `equalTo` together or fail together. |
| Methods.Call | trunk/Validator.class.php:292-300 | Dispatch is fail-open: an unknown rule passes. A registered name runs its function. Built-in names run the built-in rule: `required`, `equalTo`, `max`, `min`, `maxlength`, `minlength`, `range` and `rangelength` each run their own function, and the pattern rules run their test. |
| Methods.BuiltInsShadowRegistered | trunk/Validator.class.php:281-300 | Registering a function under a built-in rule's name does not change that rule. |
| Methods.RegisteredDecides | trunk/Validator.class.php:292-300 | A function registered under any other name decides that rule. |
| Messages.Extend | trunk/Validator.class.php:167-169 | After `extendMessages`, the new entries replace existing ones, and every other entry stays. |
| Messages.Template | trunk/Validator.class.php:176-182 | The template is chosen in this order:<br>• the field's message for the rule;<br>• else the field's entry as it stands, which is the per-rule map itself when that map lacks the rule;<br>• else the rule's default;<br>• else null, which reads as "". |
| Messages.FieldRuleMessageWins | trunk/Validator.class.php:176-179 | A field-and-rule message, once added, decides that pair whatever else the catalog holds. |
| Messages.FieldMessageBeatsRuleDefault | trunk/Validator.class.php:180-181 | A field's plain message overrides the default message of every rule for that field. |
| Messages.SubstituteLiteral | trunk/Validator.class.php:183 | Template text without `{` is copied unchanged. |
| Messages.SubstitutePlaceholder | trunk/Validator.class.php:183 | `{n}` is replaced by parameter element `n` as text, or by "" when there is none. |
| Messages.SubstituteDigits | trunk/Validator.class.php:183 | `{` followed by one or more digits and `}` is replaced by the parameter element the digits denote, read as a decimal number even with leading zeros. |
| Messages.SubstituteBrace | trunk/Validator.class.php:183 | A `{` that does not start a `{digits}` placeholder is copied unchanged. |
| Messages.SubstituteExamples | trunk/Validator.class.php:183 | `{01}` takes element 1, and `{x}` stays `{x}`. |
| Messages.SubstituteTwo | trunk/Validator.class.php:183 | A template with `{0}` and `{1}` between literal pieces receives the first two parameter elements in place. |
| Messages.GetMessage | trunk/Validator.class.php:175-184 | A plain template is returned with its placeholders filled. For a per-rule map, every template in the map is filled (`preg_replace` on an array). |
| Messages.DefaultRequiredMessage | trunk/Validator.class.php:175-184 | With the default catalog, a failed `required` on any field reports "This is a required field". |
| Validation.AsPairs | trunk/Validator.class.php:122-124 | A bare rule name `r` is declared as `r => array()`. |
| Validation.DeclareListed | trunk/Validator.class.php:126-132 | Each listed field ends up with the declared pairs followed by its old pairs that were not redeclared. This holds even when the field is listed more than once. |
| Validation.DeclareUnlisted | trunk/Validator.class.php:126-132 | A field that is not listed keeps its rules, or keeps having none. |
| Validation.DeclareWellFormed | trunk/Validator.class.php:126-132 | Declaring well-formed pairs keeps every field's rule set free of duplicate rule names. |
| Validation.AddClassRules | trunk/Validator.class.php:121-133 | Listed fields get the new pairs ahead of their old ones, unlisted fields are unchanged, and nothing else in the validator changes. Well-formed rule sets stay well formed. |
| Validation.AddMethod | trunk/Validator.class.php:112-115 | The name is registered to the handle. Its message is set, or removed when none is given (a null entry). Every other registration and message, the rules and the run state are unchanged. |
| Validation.AddedMethodDecides | trunk/Validator.class.php:112-115 | A rule added under a new name is decided by its function. It reports the given message for fields without a message of their own. |
| Validation.ExtendMessages | trunk/Validator.class.php:167-169 | Only the catalog changes. A plain field message that was added then decides every rule of that field. |
| Validation.AddAllListed | trunk/Validator.class.php:80-85 | Each field of the `rules` option gets its declaration, ahead of the rules it had. |
| Validation.AddAllUnlisted | trunk/Validator.class.php:80-85 | A field the `rules` option does not mention keeps its rules. |
| Validation.New | trunk/Validator.class.php:78-105 | The constructor fails with the "not callable" message exactly when the handler is not callable. Otherwise:<br>• every declared field has exactly its declared pairs, and no other field has rules;<br>• the catalog is the default one extended by the `messages` option;<br>• no run has happened yet. |
| Validation.RequiredParam | trunk/Validator.class.php:207 | `isset($rules['required'])` holds exactly when the rule set has a `required` rule whose parameter is not null. |
| Validation.Optional | trunk/Validator.class.php:204-209 | A field is optional exactly when it has no rules, or when each of its `required` rules has a null parameter. |
| Validation.DeclaringRequiredMakesMandatory | trunk/Validator.class.php:204-209 | Declaring `required` with a non-null parameter makes a field non-optional, whatever it had before. |
| Validation.FirstFailure | trunk/Validator.class.php:149-158 | Rules are tried in order. The result is the first rule that fails, and every earlier rule passes. No result means every rule passes. |
| Validation.FirstFailureIgnoresLater | trunk/Validator.class.php:149-158 | Rules after the first failing one are never consulted: replacing them leaves the first failure where it is. |
| Validation.PassesExactly | trunk/Validator.class.php:147-161 | `element` returns true exactly when one of these holds:<br>• the field has no rules;<br>• the value is empty and the field optional;<br>• the value passes every one of the field's rules. |
| Validation.ErrorForFirstFailure | trunk/Validator.class.php:149-156 | A failing field is reported with the message of the first rule its value fails. Every rule before that one passes. |
| Validation.Element | trunk/Validator.class.php:142-162 | Returns true exactly when the field has no rules, is an empty optional value, or passes every rule. Otherwise it records, under the field, the message of the first rule that fails (every earlier rule passed) and returns false. Success returns true and leaves the error map unchanged: an older entry for the field stays. A null map becomes empty, and nothing else changes. |
| Validation.EmptyOptionalSkipsRules | trunk/Validator.class.php:150-153 | An empty value of an optional field passes without any rule being consulted. |
| Validation.ElementStopsAtFirstFailure | trunk/Validator.class.php:149-156 | For a non-empty value, changing the rules after the first failing one changes neither the verdict nor the recorded message. |
| Validation.RunElementsListed | trunk/Validator.class.php:259-261 | The loop over the submitted values records the first failure's message for a failing field. It leaves a passing field's entry as it was. |
| Validation.RunElementsUnlisted | trunk/Validator.class.php:259-261 | The loop leaves the entries of fields that were not submitted as they were. |
| Validation.RunElementsFromEmpty | trunk/Validator.class.php:257-261 | Starting from the reset map, the loop records exactly the failing submitted fields, with their messages. |
| Validation.Validate | trunk/Validator.class.php:255-274 | The returned map is the stored map. Its keys are exactly the failing submitted fields plus the required fields that were not submitted, and these two sets are disjoint. Failing fields carry their first failure's message, and missing required fields carry the `required` message. The configuration is unchanged and the values are stored. The handler runs exactly when one is set. |
| Validation.ValidateIdempotent | trunk/Validator.class.php:256-257 | Because the error map is reset first, validating the same values again gives the same result. |
| Validation.MissingFieldGetsDefaultMessage | trunk/Validator.class.php:263-267 | With a catalog built from the defaults, a required field that was not submitted, and has neither a field nor a `required` message of its own, gets "This is a required field". |
| Validation.NumberOfInvalids | trunk/Validator.class.php:189-191 | The number of invalid fields is the size of the error map, and 0 before any run. |
| Validation.Valid | trunk/Validator.class.php:244-250 | `valid()` holds exactly when no run has happened or the error map is empty. Equivalently, `numberOfInvalids()` is 0. |
| Validation.ValidAfterValidate | trunk/Validator.class.php:244-250 | After a run, the number of invalid fields is the number of failing submitted fields plus the number of missing required fields. The run is valid exactly when both sets are empty. |
| Validation.ShowValid | trunk/Validator.class.php:232-236 | `showValid` echoes a field's submitted value when the field has no error entry, and "" otherwise. |
| Validation.ShowValidAfterValidate | trunk/Validator.class.php:232-236 | After a run, a submitted field is echoed back exactly when it passed its rules. |
| Fixtures.MinLengthExamples | trunk/VallidatorMethodCollection.test.php:75-86 | On the page's list and on "aap", `minlength` 2 and 3 pass, and 4 and -1 fail. |
| Fixtures.RangeExamples | trunk/VallidatorMethodCollection.test.php:98-105 | `range [1, 3]` passes on exactly 1, 2 and 3 among the integers 0 to 4. |
| Fixtures.RangeLengthExamples | trunk/VallidatorMethodCollection.test.php:107-124 | `rangelength [1, 3]` gives the page's verdicts on its lists, strings and integers. |
| Fixtures.ByteLengthExamples | trunk/Validator.class.php:331-376 | "één" has five UTF-8 bytes. It fails `maxlength 3` and `rangelength [1, 3]`, and passes `maxlength 5` and `minlength 5`. |
| Fixtures.BareLengthDeclarations | trunk/Validator.class.php:122-124 | A bare `maxlength` declaration passes every value, and a bare `minlength` fails every value. |
| Fixtures.RequiredExamples | trunk/VallidatorMethodCollection.test.php:126-137 | `required` gives the page's verdicts on "", " " and "aap", with no parameter and with callbacks returning true and false. |
| Fixtures.MinMaxAsWritten | trunk/VallidatorMethodCollection.test.php:65-96 | On the page's integer pairs, `max` and `min` as written give the reverse of the expected verdict whenever value and bound differ. |

## Left out

- `showError` and the `errorClass`/`errorElement` options: these only build HTML.
- The invalid handler's call: it performs arbitrary side effects such as redirecting or exiting. `Validate` records only whether it was called. Whether it is callable is decided once, at construction.
- The rules `date`, `digits`, `email` and `url`: they are regular-expression tests and stay uninterpreted in `Context.patterns`.
- Custom rule functions are opaque. `Context.functions` stands for them, keyed by the registered handle. A function is taken to return a boolean.
- Reads of `$_POST` by `equalTo` and by `required` with a selector: they read the explicit map `Context.post`.
- The `/e` evaluation in `getMessage`: it is modelled as plain substitution of `{n}`. Digits with leading zeros are read as decimal.
- `is_numeric` is modelled only for `-?[0-9]+`:
  - decimals, exponents, surrounding white space and a leading `+` count as not numeric;
  - `intval` overflow and saturation at the platform integer width are not modelled.
- Methods.Min and Methods.Max: a bound that is not a number makes the rule fail, where PHP compares the mixed types loosely.
- Methods.RangeLength and Methods.Range: the parameter must be an array (type hint `array $asRange`). Any other parameter makes PHP stop with a type error that ends the whole run; the model instead reports the rule as failing and goes on. An array whose first two elements are not both numbers also fails, where PHP compares the count loosely against them.
- Methods.EqualTo: a callable parameter makes PHP stop with a fatal error, since it cannot be indexed; the model reports the rule as failing.
- Messages.SubstitutePlaceholder and Messages.SubstituteTwo: for a string parameter, `{n}` takes character n. PHP takes byte n of the UTF-8 encoding, which can be a lone byte of a longer character. The two agree when the characters up to n are ASCII. A lone byte has no place in the message text the model builds. For a callable parameter, PHP evaluates `$asRuleParam[n]` on a Closure object and stops with a fatal error; the model replaces `{n}` by "" instead.
- String offsets and `--` follow PHP 5.4 to 7.0. PHP 5.3 read a non-numeric offset as 0, and later PHP versions changed `--` on operands that are not numbers.
- Text in encodings other than UTF-8: every string is taken to arrive UTF-8 encoded.
- Methods.MinLength and Methods.MaxLength read offsets below 0 as missing, which is PHP 5 behaviour. PHP 7.1 negative string offsets are not modelled.
- Null field values: no field value is null, so `isset` on a submitted value always holds. Boolean values are not modelled either.
- PHP method names are case-insensitive: the model matches rule names exactly. The `ArrayObject` methods inherited by the collection are not modelled.
- Rule declarations that are neither a string nor an array, and integer-like keys, which PHP converts to integers.
- The order of the error map's keys: it is a map, since no reader depends on the order.
- `required` with a callable array parameter (`[object, 'method']`): it is treated as a non-callable list. Callbacks are modelled by `Pred`, the value they return.
- The test pages: they are HTML echo scripts built on `create_function`, so they appear only as the example inputs in `Fixtures`. `create_function` returns a string, so on a real PHP the page's callback cases would reach the selector branch. `Fixtures.RequiredExamples` uses `Pred` instead.
- The root-level copy of the test page requires a `Validator.class.php` that is not part of this model.
- `count(null)` and `trim` of an array follow PHP 5 and 7, which return 0 and null. PHP 8 throws in both cases instead.

=== FILE: common.dfy ===
/** Small failure-carrying datatypes shared by every module of the validator model. */
module Common {

  /** A value that may be missing; stands for PHP's `null` where the source tests `is_null`/`isset`. */
  datatype Option<T> = None | Some(value: T) {
    function GetOr(default: T): T {
      match this
      case Some(x) => x
      case None => default
    }
  }

  /** The outcome of an operation that may throw: the value, or the exception's message. */
  datatype Result<T> = Ok(value: T) | Err(error: string)
}

=== FILE: fixtures.dfy ===
/**
  The example inputs of the rule collection's test page, with the verdicts the model gives.
  Where the page expects the opposite of what the code computes (`min` and `max`), the
  lemmas state the code's verdict.
*/
module Fixtures {
  import opened PhpText
  import opened Values
  import opened Methods

  const Dutch: seq<string> := ["aap", "noot", "mies"]

  /** `minlength` on the three-element list and on "aap": lengths 2 and 3 pass, 4 and -1 fail. */
  lemma MinLengthExamples()
    ensures MinLength(List(Dutch), PInt(2)) && MinLength(List(Dutch), PInt(3))
    ensures !MinLength(List(Dutch), PInt(4)) && !MinLength(List(Dutch), PInt(-1))
    ensures MinLength(Str("aap"), PInt(2)) && MinLength(Str("aap"), PInt(3))
    ensures !MinLength(Str("aap"), PInt(4)) && !MinLength(Str("aap"), PInt(-1))
  {
  }

  /** `range` with bounds [1, 3] on the integers 0 to 4: exactly 1, 2 and 3 pass. */
  lemma RangeExamples()
    ensures forall n :: 0 <= n <= 4 ==> (Range(Int(n), PList([Int(1), Int(3)])) <==> 1 <= n <= 3)
  {
  }

  /** `rangelength` with bounds [1, 3] on lists, strings and integers. */
  lemma RangeLengthExamples()
    ensures var b := PList([Int(1), Int(3)]);
            !RangeLength(List([]), b) && RangeLength(List(["aap"]), b) &&
            RangeLength(List(["aap", "noot"]), b) && RangeLength(List(Dutch), b) &&
            !RangeLength(List(Dutch + ["wim"]), b)
    ensures var b := PList([Int(1), Int(3)]);
            !RangeLength(Str(""), b) && RangeLength(Str("n"), b) && RangeLength(Str("no"), b) &&
            RangeLength(Str("noo"), b) && !RangeLength(Str("noot"), b)
    ensures forall n :: 0 <= n <= 4 ==> (RangeLength(Int(n), PList([Int(1), Int(3)])) <==> 1 <= n <= 3)
  {
  }

  /**
    `required` without a parameter and with a callback: "" and " " fail unless a callback
    returning false lifts the requirement; "aap" always passes.
  */
  lemma RequiredExamples(post: map<string, Value>)
    ensures !Required(Str(""), Null, post) && !Required(Str(" "), Null, post) && Required(Str("aap"), Null, post)
    ensures Required(Str("aap"), Pred(true), post) && !Required(Str(""), Pred(true), post) && !Required(Str(" "), Pred(true), post)
    ensures Required(Str("aap"), Pred(false), post) && Required(Str(""), Pred(false), post) && Required(Str(" "), Pred(false), post)
  {
    BlankIsNotFilled("");
    BlankIsNotFilled(" ");
    ContentIsFilled("aap", 0);
  }

  /**
    Lengths count bytes: "één" has three characters but five bytes in UTF-8, so it
    fails `maxlength 3` and `rangelength [1, 3]` and passes `minlength 5`.
  */
  lemma ByteLengthExamples()
    ensures !MaxLength(Str("\U{E9}\U{E9}n"), PInt(3)) && MaxLength(Str("\U{E9}\U{E9}n"), PInt(5))
    ensures MinLength(Str("\U{E9}\U{E9}n"), PInt(5)) && !MinLength(Str("\U{E9}\U{E9}n"), PInt(6))
    ensures !RangeLength(Str("\U{E9}\U{E9}n"), PList([Int(1), Int(3)]))
  {
  }

  /**
    A bare `minlength` or `maxlength` declaration stores the empty array as its bound, which
    is no offset: `maxlength` then passes every value and `minlength` fails every value.
  */
  lemma BareLengthDeclarations(v: Value)
    ensures MaxLength(v, PList([])) && !MinLength(v, PList([]))
  {
  }

  /**
    `max` and `min` on the page's integer pairs, as the code computes them: `max` passes when
    the value is at least the bound and `min` when it is at most the bound, the reverse of
    what the page expects for every pair with distinct numbers.
  */
  lemma MinMaxAsWritten()
    ensures Max(Int(14), PInt(12)) && !Max(Int(14), PInt(15)) && Max(Int(14), PInt(14))
    ensures !Max(Int(-1), PInt(12)) && Max(Int(-1), PInt(-2)) && !Max(Int(-3), PInt(-2))
    ensures !Min(Int(14), PInt(12)) && Min(Int(14), PInt(15)) && Min(Int(14), PInt(14))
    ensures Min(Int(-1), PInt(12)) && !Min(Int(-1), PInt(-2)) && Min(Int(-3), PInt(-2))
  {
  }
}

=== FILE: messages.dfy ===
/**
  The message catalog of the validator and the resolution of the error text for a failed
  rule: choose a template by precedence, then fill in its `{n}` placeholders.
*/
module Messages {
  import opened Common
  import opened PhpText
  import opened Values

  /**
    A catalog entry: one template, or a map from rule name to template (an entry for a field
    that gives a message per rule). Resolution can also yield the map form (see `Template`).
  */
  datatype Message = Plain(text: string) | PerRule(byRule: map<string, string>)

  /** Keys are rule names (default messages) and field names (field-specific messages). */
  type Catalog = map<string, Message>

  /** The catalog a fresh validator starts with. */
  const DefaultCatalog: Catalog := map["required" := Plain("This is a required field")]

  /** `extendMessages($m)`, i.e. `$m + $catalog`: entries of `m` replace existing ones, all others stay. */
  function Extend(cat: Catalog, m: Catalog): (r: Catalog)
    ensures r.Keys == cat.Keys + m.Keys
    ensures forall k :: k in m ==> r[k] == m[k]
    ensures forall k :: k in cat && k !in m ==> r[k] == cat[k]
  {
    cat + m
  }

  /**
    The template chosen for a failed `rule` on `field`: the field's message for that rule,
    else the field's entry as it stands, else the rule's default, else nothing (a missing
    entry reads as null, which substitutes to ""). A field entry that is a per-rule map
    without this rule is returned as the map itself: the rule's default is not consulted.
  */
  function Template(cat: Catalog, field: string, rule: string): (r: Message)
    ensures field in cat && cat[field].PerRule? && rule in cat[field].byRule ==>
              r == Plain(cat[field].byRule[rule])
    ensures field in cat && cat[field].PerRule? && rule !in cat[field].byRule ==> r == cat[field]
    ensures field in cat && cat[field].Plain? ==> r == cat[field]
    ensures field !in cat ==> r == if rule in cat then cat[rule] else Plain("")
  {
    if field in cat && cat[field].PerRule? && rule in cat[field].byRule then
      Plain(cat[field].byRule[rule])
    else if field in cat then
      cat[field]
    else if rule in cat then
      cat[rule]
    else
      Plain("")
  }

  /** A field-and-rule message, once added, decides that pair whatever else the catalog holds. */
  lemma FieldRuleMessageWins(cat: Catalog, field: string, rule: string, t: string)
    ensures Template(Extend(cat, map[field := PerRule(map[rule := t])]), field, rule) == Plain(t)
  {
  }

  /** A field's generic message, once added, overrides every rule's default message for that field. */
  lemma FieldMessageBeatsRuleDefault(cat: Catalog, field: string, rule: string, t: string)
    ensures Template(Extend(cat, map[field := Plain(t)]), field, rule) == Plain(t)
  {
  }

  /** The argument `{n}` takes from the parameter, `$asRuleParam[n]` as text; "" when there is none. */
  function Argument(p: Param, n: nat): string {
    match p
    case PList(items) => if n < |items| then Text(items[n]) else ""
    case PStr(s) => if n < |s| then [s[n]] else ""
    case _ => ""
  }

  /** Replaces every placeholder `{n}` (n a run of decimal digits) of `t` by argument `n` of `p`. */
  function Substitute(t: string, p: Param): string
    decreases |t|
  {
    if |t| == 0 then ""
    else if t[0] == '{' then
      var rest := t[1..];
      var n := CountWhile(rest, IsDigit);
      if 0 < n < |rest| && rest[n] == '}' then
        Argument(p, DigitsValue(rest[..n])) + Substitute(rest[n + 1..], p)
      else
        "{" + Substitute(rest, p)
    else
      [t[0]] + Substitute(t[1..], p)
  }

  /** Text without an opening brace is copied unchanged, whatever follows it. */
  lemma {:induction false} SubstituteLiteral(lit: string, rest: string, p: Param)
    requires forall i :: 0 <= i < |lit| ==> lit[i] != '{'
    ensures Substitute(lit + rest, p) == lit + Substitute(rest, p)
  {
    if |lit| == 0 {
      assert lit + rest == rest;
    } else {
      var tail := lit[1..];
      assert forall i :: 0 <= i < |tail| ==> tail[i] != '{' by {
        forall i | 0 <= i < |tail| ensures tail[i] != '{' { assert tail[i] == lit[i + 1]; }
      }
      assert lit + rest == [lit[0]] + (tail + rest);
      SubstituteCons(lit[0], tail + rest, p);
      SubstituteLiteral(tail, rest, p);
      var sr := Substitute(rest, p);
      assert [lit[0]] + (tail + sr) == lit + sr;
    }
  }

  /** One character other than an opening brace is copied. */
  lemma SubstituteCons(c: char, t: string, p: Param)
    requires c != '{'
    ensures Substitute([c] + t, p) == [c] + Substitute(t, p)
  {
    assert ([c] + t)[1..] == t;
  }

  /**
    A brace followed by one or more digits and a closing brace is a placeholder: it is replaced
    by the argument the digits denote, read as a decimal number even with leading zeros.
  */
  lemma SubstituteDigits(ds: string, rest: string, p: Param)
    requires |ds| > 0 && AllDigits(ds)
    ensures Substitute("{" + ds + "}" + rest, p) == Argument(p, DigitsValue(ds)) + Substitute(rest, p)
  {
    var t := "{" + ds + "}" + rest;
    var tail := t[1..];
    assert tail == ds + ("}" + rest);
    CountWhileStops(ds, "}" + rest, IsDigit);
    assert tail[..|ds|] == ds;
    assert tail[|ds| + 1..] == rest;
  }

  /** An opening brace that does not start a `{digits}` placeholder is copied as it is. */
  lemma SubstituteBrace(rest: string, p: Param)
    requires !(0 < CountWhile(rest, IsDigit) < |rest| && rest[CountWhile(rest, IsDigit)] == '}')
    ensures Substitute("{" + rest, p) == "{" + Substitute(rest, p)
  {
    assert ("{" + rest)[1..] == rest;
  }

  /** `{n}` written with the decimal digits of `n` is replaced by argument `n`. */
  lemma SubstitutePlaceholder(n: nat, rest: string, p: Param)
    ensures Substitute(Placeholder(n) + rest, p) == Argument(p, n) + Substitute(rest, p)
  {
    SubstituteDigits(Digits(n), rest, p);
    DigitsRoundTrip(n);
  }

  /** Leading zeros do not change the index: `{01}` takes argument 1, and `{x}` stays as written. */
  lemma SubstituteExamples(p: Param)
    ensures Substitute("{01}", p) == Argument(p, 1)
    ensures Substitute("{x}", p) == "{x}"
  {
    SubstituteDigits("01", "", p);
    assert "{" + "01" + "}" + "" == "{01}";
    assert Substitute("", p) == "";
    SubstituteBrace("x}", p);
    SubstituteLiteral("x}", "", p);
    assert "x}" + "" == "x}";
    assert "{" + "x}" == "{x}";
  }

  /** The count stops exactly at the end of a prefix that satisfies `p` when `p` fails right after it. */
  lemma {:induction false} CountWhileStops(a: string, b: string, p: char -> bool)
    requires forall i :: 0 <= i < |a| ==> p(a[i])
    requires |b| > 0 && !p(b[0])
    ensures CountWhile(a + b, p) == |a|
  {
    if |a| > 0 {
      assert (a + b)[1..] == a[1..] + b;
      CountWhileStops(a[1..], b, p);
    }
  }

  /**
    `getMessage`: the chosen template with its placeholders filled in; a per-rule map has
    every one of its templates filled in (`preg_replace` on an array).
  */
  function GetMessage(cat: Catalog, field: string, rule: string, p: Param): (r: Message)
    ensures Template(cat, field, rule).Plain? ==> r == Plain(Substitute(Template(cat, field, rule).text, p))
    ensures Template(cat, field, rule).PerRule? ==>
              r.PerRule? && r.byRule.Keys == Template(cat, field, rule).byRule.Keys &&
              forall k :: k in r.byRule ==> r.byRule[k] == Substitute(Template(cat, field, rule).byRule[k], p)
  {
    match Template(cat, field, rule)
    case Plain(t) => Plain(Substitute(t, p))
    case PerRule(m) => PerRule(map k | k in m :: Substitute(m[k], p))
  }

  /** With the default catalog, a failed `required` on any field reports the default message. */
  lemma DefaultRequiredMessage(field: string, p: Param)
    ensures GetMessage(DefaultCatalog, field, "required", p) == Plain("This is a required field")
  {
    var t := "This is a required field";
    assert Template(DefaultCatalog, field, "required") == Plain(t);
    SubstituteLiteral(t, "", p);
    assert t + "" == t;
  }

  /** A template with placeholders `{0}` and `{1}` between literal pieces. */
  lemma SubstituteTwo(a: string, b: string, c: string, p: Param)
    requires '{' !in a && '{' !in b && '{' !in c
    ensures Substitute(a + (Placeholder(0) + (b + (Placeholder(1) + c))), p)
            == a + (Argument(p, 0) + (b + (Argument(p, 1) + c)))
  {
    SubstituteLiteral(c, "", p);
    assert c + "" == c;
    SubstitutePlaceholder(1, c, p);
    SubstituteLiteral(b, Placeholder(1) + c, p);
    SubstitutePlaceholder(0, b + (Placeholder(1) + c), p);
    SubstituteLiteral(a, Placeholder(0) + (b + (Placeholder(1) + c)), p);
  }

  /** The placeholder text `{n}`. */
  function Placeholder(n: nat): string {
    "{" + Digits(n) + "}"
  }
}

=== FILE: methods.dfy ===
/**
  `ValidatorMethodCollection`: the rule registry. Built-in rules are methods of the
  collection; any other rule name goes through `__call`, which runs the function registered
  under that name and lets the value pass when nothing is registered.
*/
module Methods {
  import opened Common
  import opened PhpText
  import opened Values

  /**
    What rule evaluation reads from outside the collection: the submitted request (`$_POST`,
    read by `equalTo` and by `required` with a selector), the global functions that custom
    rules name, and the regular-expression tests behind `date`, `digits`, `email` and `url`,
    which this model leaves uninterpreted.
  */
  datatype Context = Context(
    post: map<string, Value>,
    functions: (string, Value, Param) -> bool,
    patterns: (string, Value, Param) -> bool)

  /** Rules decided by a regular expression. */
  const PatternRules: set<string> := {"date", "digits", "email", "url"}

  /** Every rule the collection implements as a method of its own. */
  const BuiltIns: set<string> :=
    PatternRules + {"equalTo", "max", "maxlength", "min", "minlength", "range", "rangelength", "required"}

  // ---------------------------------------------------------------- required

  /** The string `trim($sValue)` yields; for a list PHP's `trim` returns null, which reads as "". */
  function TrimmedText(v: Value): string {
    match v
    case Str(s) => Trim(s)
    case Int(i) => Trim(Decimal(i))
    case List(_) => ""
  }

  /** `false === empty(trim($sValue))`: the unconditional form of `required`. */
  predicate Filled(v: Value) {
    !Empty(Str(TrimmedText(v)))
  }

  predicate NotSelectorEnd(c: char) {
    c != ':' && c != '['
  }

  /**
    The field a selector such as `#agree:checked` designates: the text after a leading `#`
    up to the first `:` or `[`. Without a leading `#` the pattern does not match and the
    missing capture reads as the empty key.
  */
  function SelectorTarget(sel: string): (r: string)
    ensures forall i :: 0 <= i < |r| ==> NotSelectorEnd(r[i])
    ensures |sel| > 0 && sel[0] == '#' ==>
              1 + |r| <= |sel| && sel[1..1 + |r|] == r && (1 + |r| < |sel| ==> !NotSelectorEnd(sel[1 + |r|]))
    ensures !(|sel| > 0 && sel[0] == '#') ==> r == ""
  {
    if |sel| > 0 && sel[0] == '#' then
      var rest := sel[1..];
      rest[..CountWhile(rest, NotSelectorEnd)]
    else ""
  }

  /**
    `required($sValue, $mParam)`. A string parameter is a selector: the field is not required
    when the selected request field is absent or non-empty. A callable parameter returning
    false makes the field not required. "Not required" always passes; otherwise the value
    must be filled in.
  */
  function Required(v: Value, p: Param, post: map<string, Value>): (r: bool)
    ensures p.Null? ==> (r <==> Filled(v))
    ensures p.Pred? ==> (r <==> !p.result || Filled(v))
    ensures p.PStr? ==> (r <==> SelectorTarget(p.s) !in post || !Empty(post[SelectorTarget(p.s)]) || Filled(v))
    ensures p.PInt? || p.PBool? || p.PList? ==> (r <==> Filled(v))
    ensures Filled(v) ==> r
  {
    match p
    case PStr(sel) => SelectorTarget(sel) !in post || !Empty(post[SelectorTarget(sel)]) || Filled(v)
    case Pred(result) => !result || Filled(v)
    case _ => Filled(v)
  }

  /** A string made only of trim characters never satisfies the unconditional `required`. */
  lemma BlankIsNotFilled(s: string)
    requires forall i :: 0 <= i < |s| ==> IsTrimChar(s[i])
    ensures !Filled(Str(s))
  {
  }

  /** A string holding any character other than white space and `0` is filled in. */
  lemma ContentIsFilled(s: string, i: int)
    requires 0 <= i < |s| && !IsTrimChar(s[i]) && s[i] != '0'
    ensures Filled(Str(s))
  {
    var t := Trim(s);
    var lead := CountWhile(s, IsTrimChar);
    assert lead <= i;
    assert i < lead + |t|;
    assert t[i - lead] == s[i];
  }

  /** An integer is filled in exactly when it is not 0, the one integer `empty` accepts. */
  lemma IntFilledIffNonZero(n: int)
    ensures Filled(Int(n)) <==> n != 0
  {
    var d := Decimal(n);
    assert forall k :: 0 <= k < |d| ==> !IsTrimChar(d[k]);
    assert Trim(d) == d by {
      assert CountWhile(d, IsTrimChar) == 0;
    }
    if d == "0" {
      assert NumericValue("0") == 0;
    }
    if n == 0 {
      assert Digits(0) == "0";
    }
  }

  /** A list (checkbox group) never satisfies the unconditional `required`: `trim` of an array is null. */
  lemma ListIsNotFilled(xs: seq<string>)
    ensures !Filled(List(xs))
  {
  }

  // ---------------------------------------------------------------- min / max

  /** `max($sValue, $iMax)`: as written it passes when the value is numeric and at least the bound. */
  function Max(v: Value, p: Param): (r: bool)
    ensures v.List? ==> !r
    ensures v.Str? && !IsNumeric(v.s) ==> !r
    ensures ParamNumber(p).None? ==> !r
    ensures v.Int? && ParamNumber(p).Some? ==> (r <==> v.i >= ParamNumber(p).value)
    ensures v.Str? && IsNumeric(v.s) && ParamNumber(p).Some? ==> (r <==> NumericValue(v.s) >= ParamNumber(p).value)
  {
    Number(v).Some? && ParamNumber(p).Some? && Number(v).value >= ParamNumber(p).value
  }

  /** `min($sValue, $iMin)`: as written it passes when the value is numeric and at most the bound. */
  function Min(v: Value, p: Param): (r: bool)
    ensures v.List? ==> !r
    ensures v.Str? && !IsNumeric(v.s) ==> !r
    ensures ParamNumber(p).None? ==> !r
    ensures v.Int? && ParamNumber(p).Some? ==> (r <==> v.i <= ParamNumber(p).value)
    ensures v.Str? && IsNumeric(v.s) && ParamNumber(p).Some? ==> (r <==> NumericValue(v.s) <= ParamNumber(p).value)
  {
    Number(v).Some? && ParamNumber(p).Some? && Number(v).value <= ParamNumber(p).value
  }

  /** For a numeric value and bound one of `min`/`max` always passes, and both pass only on equality. */
  lemma MinMaxCover(v: Value, p: Param)
    requires Number(v).Some? && ParamNumber(p).Some?
    ensures Min(v, p) || Max(v, p)
    ensures Min(v, p) && Max(v, p) <==> Number(v) == ParamNumber(p)
  {
  }

  // ---------------------------------------------------------------- minlength / maxlength

  /**
    The offset a parameter denotes in `$sValue{$k}` on a string (PHP 5.4 to 7.0): null and
    booleans convert to 0 and 1, a numeric string to its number; any other string, an array
    or a callable is no offset at all.
  */
  function StringOffset(k: Param): Option<int> {
    match k
    case Null => Some(0)
    case PBool(b) => Some(if b then 1 else 0)
    case PInt(n) => Some(n)
    case PStr(t) => if IsNumeric(t) then Some(NumericValue(t)) else None
    case _ => None
  }

  /**
    The index a parameter denotes as a key of a list: booleans convert to 0 and 1, a string
    only when it is the canonical text of an integer. Null is the key "", and arrays and
    callables are illegal keys, so none of them finds an element.
  */
  function ListIndex(k: Param): Option<int> {
    match k
    case PBool(b) => Some(if b then 1 else 0)
    case PInt(n) => Some(n)
    case PStr(t) => if IsNumeric(t) && Decimal(NumericValue(t)) == t then Some(NumericValue(t)) else None
    case _ => None
  }

  /**
    `isset($sValue{$k})`: the byte at offset `k` of a string, or the element at index `k` of
    a list, exists. An integer has no offsets, and offsets below 0 are missing.
  */
  function HasOffset(v: Value, k: Param): (r: bool)
    ensures v.Int? ==> !r
    ensures k.PList? || k.Pred? ==> !r
    ensures k.PStr? && !IsNumeric(k.s) ==> !r
    ensures v.Str? && StringOffset(k).Some? ==> (r <==> 0 <= StringOffset(k).value < ByteLength(v.s))
    ensures v.List? && ListIndex(k).Some? ==> (r <==> 0 <= ListIndex(k).value < |v.items|)
    ensures v.List? && k.Null? ==> !r
    ensures v.Str? && k.Null? ==> (r <==> v.s != "")
  {
    match v
    case Str(s) => StringOffset(k).Some? && 0 <= StringOffset(k).value < ByteLength(s)
    case List(xs) => ListIndex(k).Some? && 0 <= ListIndex(k).value < |xs|
    case Int(_) => false
  }

  /** The offsets of a string or list run from 0 without gaps: where offset `k` exists, so does every lower one. */
  lemma OffsetsHaveNoGaps(v: Value, j: int, k: int)
    requires 0 <= j <= k
    ensures HasOffset(v, PInt(k)) ==> HasOffset(v, PInt(j))
  {
  }

  /**
    `--$iLength`: an integer or numeric string goes down by one, the empty string becomes -1,
    and null, booleans, other strings, arrays and callables are left as they are.
  */
  function Decrement(p: Param): (q: Param)
    ensures ParamNumber(p).Some? ==> q == PInt(ParamNumber(p).value - 1)
    ensures p.Null? || p.PBool? || p.PList? || p.Pred? ==> q == p
  {
    match p
    case PInt(n) => PInt(n - 1)
    case PStr(t) => if IsNumeric(t) then PInt(NumericValue(t) - 1) else if t == "" then PInt(-1) else p
    case _ => p
  }

  /**
    `minlength($sValue, $iLength)`: offset `length - 1` exists, so a string needs at least
    `length` bytes and a list at least `length` elements.
  */
  function MinLength(v: Value, p: Param): (r: bool)
    ensures v.Int? ==> !r
    ensures p.PList? || p.Pred? ==> !r
    ensures p.PStr? && !IsNumeric(p.s) && p.s != "" ==> !r
    ensures ParamNumber(p).Some? && v.Str? ==> (r <==> 1 <= ParamNumber(p).value <= ByteLength(v.s))
    ensures ParamNumber(p).Some? && v.List? ==> (r <==> 1 <= ParamNumber(p).value <= |v.items|)
    ensures v.Str? && p.Null? ==> (r <==> v.s != "")
    ensures v.Str? && p.PBool? ==> (r <==> (if p.b then 2 else 1) <= ByteLength(v.s))
  {
    HasOffset(v, Decrement(p))
  }

  /**
    `maxlength($sValue, $iLength)`: offset `length` does not exist, so a string may have at
    most `length` bytes and a list at most `length` elements. A bound that is no offset, such
    as the empty array of a bare declaration, lets every value pass.
  */
  function MaxLength(v: Value, p: Param): (r: bool)
    ensures v.Int? ==> r
    ensures p.PList? || p.Pred? ==> r
    ensures p.PStr? && !IsNumeric(p.s) ==> r
    ensures ParamNumber(p).Some? && ParamNumber(p).value >= 0 && v.Str? ==> (r <==> ByteLength(v.s) <= ParamNumber(p).value)
    ensures ListIndex(p).Some? && ListIndex(p).value >= 0 && v.List? ==> (r <==> |v.items| <= ListIndex(p).value)
    ensures ParamNumber(p).Some? && ParamNumber(p).value < 0 ==> r
    ensures v.Str? && p.Null? ==> (r <==> v.s == "")
  {
    !HasOffset(v, p)
  }

  /** `minlength n + 1` is exactly the negation of `maxlength n`, for every value and every n. */
  lemma MinLengthNegatesMaxLength(v: Value, n: int)
    ensures MinLength(v, PInt(n + 1)) <==> !MaxLength(v, PInt(n))
  {
  }

  /** A bound written as an integer's decimal text acts as that integer in both length rules. */
  lemma TextBoundActsAsNumber(v: Value, n: int)
    ensures MinLength(v, PStr(Decimal(n))) == MinLength(v, PInt(n))
    ensures MaxLength(v, PStr(Decimal(n))) == MaxLength(v, PInt(n))
  {
  }

  // ---------------------------------------------------------------- range / rangelength

  /** `$asRange[0]` and `$asRange[1]` when both are numbers. */
  function RangeBounds(p: Param): Option<(int, int)> {
    if p.PList? && |p.items| >= 2 && Number(p.items[0]).Some? && Number(p.items[1]).Some? then
      Some((Number(p.items[0]).value, Number(p.items[1]).value))
    else None
  }

  /** The quantity `rangelength` measures: `count`, the number itself, or `strlen` in bytes. */
  function Count(v: Value): int {
    match v
    case List(xs) => |xs|
    case Int(i) => i
    case Str(s) => if IsNumeric(s) then NumericValue(s) else ByteLength(s)
  }

  /**
    `rangelength($sValue, $asRange)`: the number of checked boxes of a list, the number itself
    for a numeric value, the byte length of any other string; it must lie within the inclusive
    bounds.
  */
  function RangeLength(v: Value, p: Param): (r: bool)
    ensures RangeBounds(p).None? ==> !r
    ensures RangeBounds(p).Some? && v.List? ==>
              (r <==> RangeBounds(p).value.0 <= |v.items| <= RangeBounds(p).value.1)
    ensures RangeBounds(p).Some? && v.Int? ==>
              (r <==> RangeBounds(p).value.0 <= v.i <= RangeBounds(p).value.1)
    ensures RangeBounds(p).Some? && v.Str? && IsNumeric(v.s) ==>
              (r <==> RangeBounds(p).value.0 <= NumericValue(v.s) <= RangeBounds(p).value.1)
    ensures RangeBounds(p).Some? && v.Str? && !IsNumeric(v.s) ==>
              (r <==> RangeBounds(p).value.0 <= ByteLength(v.s) <= RangeBounds(p).value.1)
  {
    match RangeBounds(p)
    case Some(b) => b.0 <= Count(v) && Count(v) <= b.1
    case None => false
  }

  /** `intval($sValue)`: integers unchanged, strings parsed, a list is 0 when empty and 1 otherwise. */
  function IntvalOf(v: Value): int {
    match v
    case Int(i) => i
    case Str(s) => Intval(s)
    case List(xs) => if |xs| == 0 then 0 else 1
  }

  /** `range($sValue, $asRange)`: `rangelength` applied to `intval` of the value. */
  function Range(v: Value, p: Param): (r: bool)
    ensures RangeBounds(p).None? ==> !r
    ensures RangeBounds(p).Some? ==>
              (r <==> RangeBounds(p).value.0 <= IntvalOf(v) <= RangeBounds(p).value.1)
  {
    RangeLength(Int(IntvalOf(v)), p)
  }

  /** On numbers and numeric strings `range` and `rangelength` agree. */
  lemma RangeAgreesOnNumbers(v: Value, p: Param)
    requires Number(v).Some?
    ensures Range(v, p) == RangeLength(v, p)
  {
    if v.Str? {
      IntvalOfNumeric(v.s);
    }
  }

  // ---------------------------------------------------------------- equalTo

  /** `$sEqualTo` with one leading `#` removed. */
  function FieldRef(s: string): string {
    if |s| > 0 && s[0] == '#' then s[1..] else s
  }

  /** The string `strcmp` receives for a value; a list makes `strcmp` fail. */
  function Scalar(v: Value): Option<string> {
    if v.List? then None else Some(Text(v))
  }

  /** The request field `strcmp` compares against; an absent field reads as null, i.e. "". */
  function PostText(post: map<string, Value>, k: string): Option<string> {
    if k in post then Scalar(post[k]) else Some("")
  }

  /**
    The request key `$_POST[$sEqualTo]` reads. A string loses one leading `#`; an integer,
    boolean or null parameter is converted to a key; an array whose first element is "#" is
    passed to `substr`, which returns null, the key "". Any other array is an illegal key,
    and the lookup yields null.
  */
  function EqualToKey(p: Param): Option<string> {
    match p
    case PStr(s) => Some(FieldRef(s))
    case PInt(n) => Some(Decimal(n))
    case PBool(b) => Some(if b then "1" else "0")
    case Null => Some("")
    case PList(xs) => if |xs| > 0 && xs[0] == Str("#") then Some("") else None
    case Pred(_) => None
  }

  /**
    `equalTo($sValue, $sEqualTo)`: the value equals, as a string, the request field the
    parameter designates; a lookup that finds nothing compares as "". A callable parameter
    cannot be indexed, and the rule fails.
  */
  function EqualTo(v: Value, p: Param, post: map<string, Value>): (r: bool)
    ensures v.List? || p.Pred? ==> !r
    ensures p.PStr? && FieldRef(p.s) !in post ==> (r <==> Text(v) == "" && !v.List?)
    ensures p.PStr? && FieldRef(p.s) in post && !post[FieldRef(p.s)].List? && !v.List? ==>
              (r <==> Text(v) == Text(post[FieldRef(p.s)]))
    ensures p.PStr? && FieldRef(p.s) in post && post[FieldRef(p.s)].List? ==> !r
    ensures p.PList? && (|p.items| == 0 || p.items[0] != Str("#")) ==> (r <==> Text(v) == "" && !v.List?)
  {
    if p.Pred? then false
    else
      var other := match EqualToKey(p) case Some(k) => PostText(post, k) case None => Some("");
      Scalar(v).Some? && other == Scalar(v)
  }

  /** An integer parameter designates the request field named by its decimal text. */
  lemma IntegerReferenceReadsItsText(v: Value, n: int, post: map<string, Value>)
    ensures EqualTo(v, PInt(n), post) == EqualTo(v, PStr(Decimal(n)), post)
  {
    var d := Decimal(n);
    assert d[0] != '#';
  }

  /** Two request fields that are equal to each other: each passes `equalTo` the other. */
  lemma EqualToSymmetric(post: map<string, Value>, a: string, b: string)
    requires a in post && b in post
    requires |b| == 0 || b[0] != '#'
    requires |a| == 0 || a[0] != '#'
    ensures EqualTo(post[a], PStr("#" + b), post) <==> EqualTo(post[b], PStr("#" + a), post)
  {
    assert FieldRef("#" + b) == b;
    assert FieldRef("#" + a) == a;
  }

  // ---------------------------------------------------------------- dispatch

  /**
    `$collection->{$rule}($value, $param)`: a built-in method wins; any other name goes
    through `__call`, which calls the function registered under that name, or passes.
  */
  function Call(methods: map<string, string>, name: string, v: Value, p: Param, ctx: Context): (r: bool)
    ensures name !in BuiltIns && name !in methods ==> r
    ensures name !in BuiltIns && name in methods ==> r == ctx.functions(methods[name], v, p)
    ensures name in PatternRules ==> r == ctx.patterns(name, v, p)
    ensures name == "required" ==> r == Required(v, p, ctx.post)
    ensures name == "equalTo" ==> r == EqualTo(v, p, ctx.post)
    ensures name == "max" ==> r == Max(v, p)
    ensures name == "min" ==> r == Min(v, p)
    ensures name == "maxlength" ==> r == MaxLength(v, p)
    ensures name == "minlength" ==> r == MinLength(v, p)
    ensures name == "range" ==> r == Range(v, p)
    ensures name == "rangelength" ==> r == RangeLength(v, p)
  {
    if name == "required" then Required(v, p, ctx.post)
    else if name == "equalTo" then EqualTo(v, p, ctx.post)
    else if name == "max" then Max(v, p)
    else if name == "min" then Min(v, p)
    else if name == "maxlength" then MaxLength(v, p)
    else if name == "minlength" then MinLength(v, p)
    else if name == "range" then Range(v, p)
    else if name == "rangelength" then RangeLength(v, p)
    else if name in PatternRules then ctx.patterns(name, v, p)
    else if name in methods then ctx.functions(methods[name], v, p)
    else true
  }

  /** Registering a function under a built-in name has no effect on that rule. */
  lemma BuiltInsShadowRegistered(methods: map<string, string>, name: string, handle: string,
                                 v: Value, p: Param, ctx: Context)
    requires name in BuiltIns
    ensures Call(methods[name := handle], name, v, p, ctx) == Call(methods, name, v, p, ctx)
  {
  }

  /** A function registered under any other name decides that rule. */
  lemma RegisteredDecides(methods: map<string, string>, name: string, handle: string,
                          v: Value, p: Param, ctx: Context)
    requires name !in BuiltIns
    ensures Call(methods[name := handle], name, v, p, ctx) == ctx.functions(handle, v, p)
  {
  }
}

=== FILE: php_array.dfy ===
/**
  PHP arrays with string keys keep their insertion order, and the validator depends on
  that order (rules of a field run in declaration order). They are modelled here as
  association lists `seq<(string, V)>`; a well-formed PHP array has pairwise distinct keys.
*/
module PhpArray {
  import opened Common

  /** The set of keys of an association list. */
  function Keys<V>(a: seq<(string, V)>): set<string> {
    set i | 0 <= i < |a| :: a[i].0
  }

  /** No key occurs twice: what every PHP array guarantees. */
  predicate Distinct<V>(a: seq<(string, V)>) {
    forall i, j :: 0 <= i < j < |a| ==> a[i].0 != a[j].0
  }

  /** `$a[$k]` guarded by `array_key_exists`: the value stored under `k`, if any. */
  function Get<V>(a: seq<(string, V)>, k: string): (r: Option<V>)
    ensures r.Some? <==> k in Keys(a)
    ensures forall i :: 0 <= i < |a| && a[i].0 == k && (forall j :: 0 <= j < i ==> a[j].0 != k)
                        ==> r == Some(a[i].1)
  {
    if |a| == 0 then None
    else if a[0].0 == k then Some(a[0].1)
    else
      assert Keys(a) == {a[0].0} + Keys(a[1..]) by {
        forall x | x in Keys(a) ensures x in {a[0].0} + Keys(a[1..]) {
          var i :| 0 <= i < |a| && a[i].0 == x;
          if i > 0 { assert a[1..][i - 1].0 == x; }
        }
      }
      Get(a[1..], k)
  }

  /** In a well-formed array every stored pair is found by its key. */
  lemma GetDistinct<V>(a: seq<(string, V)>, i: int)
    requires Distinct(a) && 0 <= i < |a|
    ensures Get(a, a[i].0) == Some(a[i].1)
  {
  }

  /** Looking a key up in a concatenation: the left part wins. */
  lemma {:induction false} GetConcat<V>(a: seq<(string, V)>, b: seq<(string, V)>, k: string)
    ensures Get(a + b, k) == if k in Keys(a) then Get(a, k) else Get(b, k)
  {
    if |a| == 0 {
      assert a + b == b;
    } else {
      assert (a + b)[0] == a[0];
      assert (a + b)[1..] == a[1..] + b;
      if a[0].0 != k {
        GetConcat(a[1..], b, k);
        assert k in Keys(a) <==> k in Keys(a[1..]) by {
          if k in Keys(a) {
            var i :| 0 <= i < |a| && a[i].0 == k;
            assert a[1..][i - 1].0 == k;
          }
        }
      }
    }
  }

  /** The keys of a concatenation are the keys of its parts. */
  lemma KeysConcat<V>(x: seq<(string, V)>, y: seq<(string, V)>)
    ensures Keys(x + y) == Keys(x) + Keys(y)
  {
    forall k | k in Keys(x + y) ensures k in Keys(x) + Keys(y) {
      var i :| 0 <= i < |x + y| && (x + y)[i].0 == k;
      if i >= |x| { assert y[i - |x|].0 == k; }
    }
    forall k | k in Keys(y) ensures k in Keys(x + y) {
      var i :| 0 <= i < |y| && y[i].0 == k;
      assert (x + y)[|x| + i].0 == k;
    }
    forall k | k in Keys(x) ensures k in Keys(x + y) {
      var i :| 0 <= i < |x| && x[i].0 == k;
      assert (x + y)[i].0 == k;
    }
  }

  /** The pairs of `b` whose key is not in `ks`, in their original order. */
  function Without<V>(b: seq<(string, V)>, ks: set<string>): (r: seq<(string, V)>)
    ensures Keys(r) == Keys(b) - ks
    ensures forall k :: k !in ks ==> Get(r, k) == Get(b, k)
    ensures Distinct(b) ==> Distinct(r)
    ensures |r| <= |b|
  {
    if |b| == 0 then []
    else
      var rest := Without(b[1..], ks);
      assert Keys(b) == {b[0].0} + Keys(b[1..]) by {
        forall x | x in Keys(b) ensures x in {b[0].0} + Keys(b[1..]) {
          var i :| 0 <= i < |b| && b[i].0 == x;
          if i > 0 { assert b[1..][i - 1].0 == x; }
        }
      }
      if b[0].0 in ks then rest
      else
        assert Distinct(b) ==> b[0].0 !in Keys(b[1..]);
        KeysConcat([b[0]], rest);
        assert forall k :: k !in ks ==> Get([b[0]] + rest, k) == Get(b, k) by {
          forall k | k !in ks ensures Get([b[0]] + rest, k) == Get(b, k) {
            assert ([b[0]] + rest)[1..] == rest;
          }
        }
        [b[0]] + rest
  }

  /**
    The positions of `b` from `start` on whose key is not in `ks`, in increasing order:
    every such position, and no other.
  */
  function KeptFrom<V>(b: seq<(string, V)>, ks: set<string>, start: nat): (r: seq<nat>)
    ensures forall i :: 0 <= i < |r| ==> start <= r[i] < |b| && b[r[i]].0 !in ks
    ensures forall i, j :: 0 <= i < j < |r| ==> r[i] < r[j]
    ensures forall m :: start <= m < |b| && b[m].0 !in ks ==> m in r
    decreases |b| - start
  {
    if start >= |b| then []
    else if b[start].0 in ks then KeptFrom(b, ks, start + 1)
    else [start] + KeptFrom(b, ks, start + 1)
  }

  /** The positions of `b` whose key is not in `ks`, in increasing order. */
  function Kept<V>(b: seq<(string, V)>, ks: set<string>): (r: seq<nat>)
    ensures forall i :: 0 <= i < |r| ==> r[i] < |b| && b[r[i]].0 !in ks
    ensures forall i, j :: 0 <= i < j < |r| ==> r[i] < r[j]
    ensures forall m :: 0 <= m < |b| && b[m].0 !in ks ==> m in r
  {
    KeptFrom(b, ks, 0)
  }

  /** `Without` keeps as many pairs as `KeptFrom` lists positions. */
  lemma {:induction false} WithoutKeptLength<V>(b: seq<(string, V)>, ks: set<string>, start: nat)
    requires start <= |b|
    ensures |Without(b[start..], ks)| == |KeptFrom(b, ks, start)|
    decreases |b| - start
  {
    if start < |b| {
      WithoutKeptLength(b, ks, start + 1);
      assert b[start..][1..] == b[start + 1..];
    }
  }

  /** The `i`-th pair `Without` keeps is the pair at the `i`-th position `KeptFrom` lists. */
  lemma {:induction false} WithoutKeptAt<V>(b: seq<(string, V)>, ks: set<string>, start: nat, i: nat)
    requires start <= |b| && i < |KeptFrom(b, ks, start)| && i < |Without(b[start..], ks)|
    ensures Without(b[start..], ks)[i] == b[KeptFrom(b, ks, start)[i]]
    decreases |b| - start
  {
    var c := b[start..];
    assert c[1..] == b[start + 1..];
    if b[start].0 in ks {
      WithoutKeptAt(b, ks, start + 1, i);
    } else if i > 0 {
      WithoutKeptAt(b, ks, start + 1, i - 1);
    }
  }

  /** `Without` keeps exactly the pairs at the positions `Kept` lists, in that order. */
  lemma WithoutKept<V>(b: seq<(string, V)>, ks: set<string>)
    ensures |Without(b, ks)| == |Kept(b, ks)|
    ensures forall i :: 0 <= i < |Without(b, ks)| ==> Without(b, ks)[i] == b[Kept(b, ks)[i]]
  {
    assert b[0..] == b;
    WithoutKeptLength(b, ks, 0);
    forall i | 0 <= i < |Without(b, ks)| ensures Without(b, ks)[i] == b[Kept(b, ks)[i]] {
      WithoutKeptAt(b, ks, 0, i);
    }
  }

  /**
    PHP's array union `$a + $b`: every pair of `a` in order, then the pairs of `b` whose
    key `a` does not define, in their order. On a shared key the left operand wins.
  */
  function Union<V>(a: seq<(string, V)>, b: seq<(string, V)>): (r: seq<(string, V)>)
    ensures Keys(r) == Keys(a) + Keys(b)
    ensures |a| <= |r| && r[..|a|] == a
    ensures forall i :: |a| <= i < |r| ==> r[i].0 !in Keys(a) && r[i] in b
    ensures |r| == |a| + |Kept(b, Keys(a))|
    ensures forall i :: |a| <= i < |r| ==> r[i] == b[Kept(b, Keys(a))[i - |a|]]
    ensures forall k :: Get(r, k) == if k in Keys(a) then Get(a, k) else Get(b, k)
    ensures Distinct(a) && Distinct(b) ==> Distinct(r)
  {
    var tail := Without(b, Keys(a));
    KeysConcat(a, tail);
    assert (a + tail)[..|a|] == a;
    UnionTail(a, b);
    UnionGet(a, b);
    UnionDistinct(a, b);
    UnionOrder(a, b);
    a + tail
  }

  /** The pairs `$a + $b` appends to `a` come from `b` and carry keys `a` lacks. */
  lemma UnionTail<V>(a: seq<(string, V)>, b: seq<(string, V)>)
    ensures forall i :: |a| <= i < |a + Without(b, Keys(a))| ==>
              (a + Without(b, Keys(a)))[i].0 !in Keys(a) && (a + Without(b, Keys(a)))[i] in b
  {
    var ks := Keys(a);
    var tail := Without(b, ks);
    forall j | 0 <= j < |tail| ensures tail[j] in b && tail[j].0 !in ks {
      WithoutIsSubsequence(b, ks, j);
    }
    AppendedFrom(a, tail, b, ks);
  }

  /** Appending pairs that all come from `b` and avoid `ks`. */
  lemma AppendedFrom<V>(a: seq<(string, V)>, t: seq<(string, V)>, b: seq<(string, V)>, ks: set<string>)
    requires forall j :: 0 <= j < |t| ==> t[j] in b && t[j].0 !in ks
    ensures forall i :: |a| <= i < |a + t| ==> (a + t)[i].0 !in ks && (a + t)[i] in b
  {
    forall i | |a| <= i < |a + t| ensures (a + t)[i].0 !in ks && (a + t)[i] in b {
      assert (a + t)[i] == t[i - |a|];
    }
  }

  /** The pairs `$a + $b` appends are those of `b` at the positions `Kept` lists, in order. */
  lemma UnionOrder<V>(a: seq<(string, V)>, b: seq<(string, V)>)
    ensures |a + Without(b, Keys(a))| == |a| + |Kept(b, Keys(a))|
    ensures forall i :: |a| <= i < |a + Without(b, Keys(a))| ==>
              (a + Without(b, Keys(a)))[i] == b[Kept(b, Keys(a))[i - |a|]]
  {
    var tail := Without(b, Keys(a));
    WithoutKept(b, Keys(a));
    forall i | |a| <= i < |a + tail| ensures (a + tail)[i] == b[Kept(b, Keys(a))[i - |a|]] {
      assert (a + tail)[i] == tail[i - |a|];
    }
  }

  /** Lookups in `$a + $b` see `a` first, then `b`. */
  lemma UnionGet<V>(a: seq<(string, V)>, b: seq<(string, V)>)
    ensures forall k :: Get(a + Without(b, Keys(a)), k) == if k in Keys(a) then Get(a, k) else Get(b, k)
  {
    forall k ensures Get(a + Without(b, Keys(a)), k) == if k in Keys(a) then Get(a, k) else Get(b, k) {
      GetConcat(a, Without(b, Keys(a)), k);
    }
  }

  /** `$a + $b` of two well-formed arrays is well formed. */
  lemma UnionDistinct<V>(a: seq<(string, V)>, b: seq<(string, V)>)
    ensures Distinct(a) && Distinct(b) ==> Distinct(a + Without(b, Keys(a)))
  {
    if Distinct(a) && Distinct(b) {
      DistinctConcat(a, Without(b, Keys(a)));
    }
  }

  /** Joining two well-formed arrays with disjoint keys gives a well-formed array. */
  lemma DistinctConcat<V>(x: seq<(string, V)>, y: seq<(string, V)>)
    requires Distinct(x) && Distinct(y) && Keys(x) !! Keys(y)
    ensures Distinct(x + y)
  {
    forall i, j | 0 <= i < j < |x + y| ensures (x + y)[i].0 != (x + y)[j].0 {
      if j >= |x| {
        assert (x + y)[j] == y[j - |x|];
        assert y[j - |x|].0 in Keys(y);
        if i >= |x| {
          assert (x + y)[i] == y[i - |x|];
        } else {
          assert x[i].0 in Keys(x);
        }
      }
    }
  }

  /** Every pair kept by `Without` was a pair of its input, and its key is not filtered out. */
  lemma {:induction false} WithoutIsSubsequence<V>(b: seq<(string, V)>, ks: set<string>, i: int)
    requires 0 <= i < |Without(b, ks)|
    ensures Without(b, ks)[i] in b && Without(b, ks)[i].0 !in ks
  {
    var rest := Without(b[1..], ks);
    if b[0].0 in ks {
      WithoutIsSubsequence(b[1..], ks, i);
      assert rest[i] in b[1..];
    } else if i > 0 {
      assert Without(b, ks)[i] == rest[i - 1];
      WithoutIsSubsequence(b[1..], ks, i - 1);
      assert rest[i - 1] in b[1..];
    }
  }

  /** Filtering distributes over concatenation. */
  lemma {:induction false} WithoutConcat<V>(x: seq<(string, V)>, y: seq<(string, V)>, ks: set<string>)
    ensures Without(x + y, ks) == Without(x, ks) + Without(y, ks)
  {
    if |x| == 0 {
      assert x + y == y;
    } else {
      assert (x + y)[0] == x[0];
      assert (x + y)[1..] == x[1..] + y;
      WithoutConcat(x[1..], y, ks);
    }
  }

  /** Filtering out a superset of the keys leaves nothing; filtering disjoint keys changes nothing. */
  lemma {:induction false} WithoutCovered<V>(x: seq<(string, V)>, ks: set<string>)
    ensures Keys(x) <= ks ==> Without(x, ks) == []
    ensures Keys(x) !! ks ==> Without(x, ks) == x
  {
    if |x| > 0 {
      assert x[0].0 in Keys(x);
      assert Keys(x[1..]) <= Keys(x) by {
        forall k | k in Keys(x[1..]) ensures k in Keys(x) {
          var i :| 0 <= i < |x[1..]| && x[1..][i].0 == k;
          assert x[i + 1].0 == k;
        }
      }
      WithoutCovered(x[1..], ks);
      assert x == [x[0]] + x[1..];
    }
  }

  /**
    Re-applying the same left operand is harmless: `$a + ($a + $b) == $a + $b`. This is why
    naming one field twice in a single rule declaration gives the same rules as naming it once.
  */
  lemma UnionAbsorbs<V>(a: seq<(string, V)>, b: seq<(string, V)>)
    ensures Union(a, Union(a, b)) == Union(a, b)
  {
    var ks := Keys(a);
    var tail := Without(b, ks);
    WithoutConcat(a, tail, ks);
    WithoutCovered(a, ks);
    WithoutCovered(tail, ks);
    assert Without(a + tail, ks) == tail;
  }

  /** Uniting with an empty array changes nothing. */
  lemma UnionEmpty<V>(a: seq<(string, V)>)
    ensures Union(a, []) == a
  {
  }
}

=== FILE: php_text.dfy ===
/**
  The parts of PHP's string library the validator relies on: `trim`, the decimal text of an
  integer, the integer-literal subset of `is_numeric`, and `intval` on strings.
*/
module PhpText {

  predicate IsDigit(c: char) {
    '0' <= c <= '9'
  }

  predicate AllDigits(s: string) {
    forall i :: 0 <= i < |s| ==> IsDigit(s[i])
  }

  /** The characters `trim()` strips by default: space, tab, line feed, carriage return, NUL, vertical tab. */
  predicate IsTrimChar(c: char) {
    c == ' ' || c == '\t' || c == '\n' || c == '\r' || c == '\0' || c == '\U{B}'
  }

  /** The white space `intval()` skips before a number: space, tab, line feed, carriage return, vertical tab, form feed. */
  predicate IsIntvalSpace(c: char) {
    c == ' ' || c == '\t' || c == '\n' || c == '\r' || c == '\U{B}' || c == '\U{C}'
  }

  /** Length of the longest prefix of `s` whose characters all satisfy `p`. */
  function CountWhile(s: string, p: char -> bool): (n: nat)
    ensures n <= |s|
    ensures forall i :: 0 <= i < n ==> p(s[i])
    ensures n < |s| ==> !p(s[n])
  {
    if |s| == 0 || !p(s[0]) then 0 else 1 + CountWhile(s[1..], p)
  }

  /** Length of the longest suffix of `s` whose characters all satisfy `p`. */
  function CountWhileBack(s: string, p: char -> bool): (n: nat)
    ensures n <= |s|
    ensures forall i :: |s| - n <= i < |s| ==> p(s[i])
    ensures n < |s| ==> !p(s[|s| - 1 - n])
  {
    if |s| == 0 || !p(s[|s| - 1]) then 0 else 1 + CountWhileBack(s[..|s| - 1], p)
  }

  /**
    PHP's `trim($s)`: `s` without its leading and trailing trim characters. The result is the
    slice of `s` that starts at the first non-trim character and ends at the last one.
  */
  function Trim(s: string): (r: string)
    ensures CountWhile(s, IsTrimChar) + |r| <= |s|
    ensures r == s[CountWhile(s, IsTrimChar)..CountWhile(s, IsTrimChar) + |r|]
    ensures forall i :: CountWhile(s, IsTrimChar) + |r| <= i < |s| ==> IsTrimChar(s[i])
    ensures |r| > 0 ==> !IsTrimChar(r[0]) && !IsTrimChar(r[|r| - 1])
    ensures |r| == 0 <==> forall i :: 0 <= i < |s| ==> IsTrimChar(s[i])
  {
    var lead := CountWhile(s, IsTrimChar);
    var rest := s[lead..];
    var back := CountWhileBack(rest, IsTrimChar);
    var r := rest[..|rest| - back];
    assert r == s[lead..lead + |r|];
    assert forall i :: lead + |r| <= i < |s| ==> IsTrimChar(s[i]) by {
      forall i | lead + |r| <= i < |s| ensures IsTrimChar(s[i]) {
        assert s[i] == rest[i - lead];
      }
    }
    assert |r| > 0 ==> r[0] == s[lead] && r[|r| - 1] == rest[|rest| - 1 - back];
    r
  }

  /**
    The number of bytes a character takes in UTF-8, the encoding form data arrives in. PHP
    strings are byte strings, so `strlen` and string offsets count these bytes.
  */
  function Utf8Width(c: char): nat {
    if c as int < 0x80 then 1 else if c as int < 0x800 then 2 else if c as int < 0x1_0000 then 3 else 4
  }

  /** `strlen($s)`: the number of bytes of the UTF-8 text `s`, between one and four per character. */
  function ByteLength(s: string): (n: nat)
    ensures |s| <= n <= 4 * |s|
  {
    if |s| == 0 then 0 else Utf8Width(s[0]) + ByteLength(s[1..])
  }

  /** On ASCII text bytes and characters coincide. */
  lemma {:induction false} AsciiByteLength(s: string)
    requires forall i :: 0 <= i < |s| ==> s[i] as int < 0x80
    ensures ByteLength(s) == |s|
  {
    if |s| > 0 {
      AsciiByteLength(s[1..]);
    }
  }

  /** A single character outside ASCII makes the text longer in bytes than in characters. */
  lemma {:induction false} NonAsciiByteLength(s: string, i: int)
    requires 0 <= i < |s| && s[i] as int >= 0x80
    ensures ByteLength(s) > |s|
  {
    if i > 0 {
      NonAsciiByteLength(s[1..], i - 1);
    }
  }

  function DigitChar(d: nat): (c: char)
    requires d < 10
    ensures IsDigit(c)
  {
    (d + '0' as int) as char
  }

  function DigitValue(c: char): (d: nat)
    requires IsDigit(c)
    ensures d < 10 && DigitChar(d) == c
  {
    c as int - '0' as int
  }

  /** The decimal digits of `n`, most significant first, with no leading zero. */
  function Digits(n: nat): (s: string)
    ensures |s| >= 1 && AllDigits(s)
    ensures s[0] == '0' ==> n == 0 && |s| == 1
  {
    if n < 10 then [DigitChar(n)] else Digits(n / 10) + [DigitChar(n % 10)]
  }

  /** The number a string of decimal digits denotes (0 for the empty string). */
  function DigitsValue(s: string): nat
    requires AllDigits(s)
  {
    if |s| == 0 then 0 else 10 * DigitsValue(s[..|s| - 1]) + DigitValue(s[|s| - 1])
  }

  /** Reading back the digits of `n` gives `n`. */
  lemma {:induction false} DigitsRoundTrip(n: nat)
    ensures DigitsValue(Digits(n)) == n
  {
    if n >= 10 {
      var s := Digits(n);
      assert s[..|s| - 1] == Digits(n / 10);
      DigitsRoundTrip(n / 10);
    }
  }

  /**
    The part of `is_numeric` this model covers: an optional minus sign followed by one or
    more decimal digits.
  */
  predicate IsNumeric(s: string) {
    || (|s| >= 1 && AllDigits(s))
    || (|s| >= 2 && s[0] == '-' && AllDigits(s[1..]))
  }

  /** The integer a numeric string denotes. */
  function NumericValue(s: string): int
    requires IsNumeric(s)
  {
    if s[0] == '-' then -(DigitsValue(s[1..]) as int) else DigitsValue(s)
  }

  /** PHP's string conversion of an integer: its decimal text, which reads back as the same integer. */
  function Decimal(n: int): (s: string)
    ensures IsNumeric(s) && NumericValue(s) == n
  {
    if n < 0 then
      DigitsRoundTrip(-n);
      var s := "-" + Digits(-n);
      assert s[1..] == Digits(-n);
      s
    else
      DigitsRoundTrip(n);
      Digits(n)
  }

  /**
    PHP's `intval($s)` on a string: skip leading white space, read an optional sign and the
    longest run of digits; 0 when there are none.
  */
  function Intval(s: string): (r: int)
    ensures (forall i :: 0 <= i < |s| ==> !IsDigit(s[i])) ==> r == 0
    ensures r < 0 ==> CountWhile(s, IsIntvalSpace) < |s| && s[CountWhile(s, IsIntvalSpace)] == '-'
  {
    var t := s[CountWhile(s, IsIntvalSpace)..];
    if |t| > 0 && (t[0] == '-' || t[0] == '+') then
      var u := t[1..];
      var m: int := DigitsValue(u[..CountWhile(u, IsDigit)]);
      if t[0] == '-' then -m else m
    else
      DigitsValue(t[..CountWhile(t, IsDigit)])
  }

  /** On a numeric string `intval` and numeric comparison agree on the value. */
  lemma IntvalOfNumeric(s: string)
    requires IsNumeric(s)
    ensures Intval(s) == NumericValue(s)
  {
    assert CountWhile(s, IsIntvalSpace) == 0;
    if s[0] == '-' {
      var u := s[1..];
      assert CountWhile(u, IsDigit) == |u| by { CountAll(u, IsDigit); }
      assert u[..|u|] == u;
    } else {
      assert CountWhile(s, IsDigit) == |s| by { CountAll(s, IsDigit); }
      assert s[..|s|] == s;
    }
  }

  /**
    `intval` reads only the leading number: text after the digits, such as the unit in
    "12px", does not change the result.
  */
  lemma IntvalIgnoresTrailing(s: string, rest: string)
    requires IsNumeric(s) && (|rest| == 0 || !IsDigit(rest[0]))
    ensures Intval(s + rest) == NumericValue(s)
  {
    var x := s + rest;
    assert x[0] == s[0];
    assert CountWhile(x, IsIntvalSpace) == 0;
    assert x[0..] == x;
    if s[0] == '-' {
      var u := s[1..];
      assert x[1..] == u + rest;
      CountPrefix(u, rest, IsDigit);
      assert (u + rest)[..|u|] == u;
    } else {
      CountPrefix(s, rest, IsDigit);
      assert x[..|s|] == s;
    }
  }

  /** A prefix of characters satisfying `p`, followed by one that does not, is counted exactly. */
  lemma {:induction false} CountPrefix(s: string, rest: string, p: char -> bool)
    requires forall i :: 0 <= i < |s| ==> p(s[i])
    requires |rest| == 0 || !p(rest[0])
    ensures CountWhile(s + rest, p) == |s|
  {
    if |s| == 0 {
      assert s + rest == rest;
    } else {
      assert (s + rest)[0] == s[0];
      assert (s + rest)[1..] == s[1..] + rest;
      CountPrefix(s[1..], rest, p);
    }
  }

  /** When every character satisfies `p`, the whole string is counted. */
  lemma {:induction false} CountAll(s: string, p: char -> bool)
    requires forall i :: 0 <= i < |s| ==> p(s[i])
    ensures CountWhile(s, p) == |s|
  {
    if |s| > 0 {
      CountAll(s[1..], p);
    }
  }
}

=== FILE: validator.dfy ===
/**
  The `Validator` class: per-field ordered rule sets, the message catalog, the registry of
  custom rules, and the state of the last run (the submitted values and the error map).
  Every operation is a pure function from the old validator to the new one.
*/
module Validation {
  import opened Common
  import opened PhpArray
  import opened Values
  import opened Methods
  import opened Messages

  /** The rules of one field, in declaration order: rule name and its parameter. */
  type RuleSet = seq<(string, Param)>

  /** A rule declaration: a bare rule name, or rule/parameter pairs. */
  datatype RuleDecl = Bare(name: string) | Pairs(pairs: RuleSet)

  /** The configuration of a validator, which no run changes. */
  datatype Config = Config(
    methods: map<string, string>,
    rules: map<string, RuleSet>,
    messages: Catalog,
    invalidHandler: Option<string>)

  /**
    A validator: its configuration, the values of the last run, and the error map, which is
    null until a field has been checked.
  */
  datatype Validator = Validator(config: Config, values: seq<(string, Value)>, errors: Option<map<string, Message>>)

  /** Every rule set is a well-formed PHP array: no rule name occurs twice. */
  predicate RulesWellFormed(rules: map<string, RuleSet>) {
    forall f :: f in rules ==> Distinct(rules[f])
  }

  /** A bare name `r` is declared as `array(r => array())`. */
  function AsPairs(d: RuleDecl): (r: RuleSet)
    ensures d.Bare? ==> |r| == 1 && r[0].0 == d.name && r[0].1 == PList([])
    ensures d.Pairs? ==> r == d.pairs
  {
    match d
    case Bare(n) => [(n, PList([]))]
    case Pairs(ps) => ps
  }

  /** The rules stored for `f`, empty when there are none. */
  function Stored(rules: map<string, RuleSet>, f: string): RuleSet {
    if f in rules then rules[f] else []
  }

  // ---------------------------------------------------------------- configuration

  /** The loop of `addClassRules`: `$rules[$f] = $pairs + $rules[$f]` for each listed field in turn. */
  function Declare(rules: map<string, RuleSet>, p: RuleSet, fields: seq<string>): map<string, RuleSet>
    decreases |fields|
  {
    if |fields| == 0 then rules
    else Declare(rules[fields[0] := Union(p, Stored(rules, fields[0]))], p, fields[1..])
  }

  /**
    A listed field ends up with the declared pairs followed by its old pairs not redeclared,
    also when it is listed more than once.
  */
  lemma {:induction false} DeclareListed(rules: map<string, RuleSet>, p: RuleSet, fields: seq<string>, g: string)
    requires g in fields
    ensures g in Declare(rules, p, fields) && Declare(rules, p, fields)[g] == Union(p, Stored(rules, g))
    decreases |fields|
  {
    var f := fields[0];
    var r1 := rules[f := Union(p, Stored(rules, f))];
    if g in fields[1..] {
      DeclareListed(r1, p, fields[1..], g);
      if g == f {
        UnionAbsorbs(p, Stored(rules, f));
      }
    } else {
      DeclareUnlisted(r1, p, fields[1..], g);
    }
  }

  /** A field that is not listed keeps its rules, or keeps having none. */
  lemma {:induction false} DeclareUnlisted(rules: map<string, RuleSet>, p: RuleSet, fields: seq<string>, g: string)
    requires g !in fields
    ensures g in Declare(rules, p, fields) <==> g in rules
    ensures g in rules ==> Declare(rules, p, fields)[g] == rules[g]
    decreases |fields|
  {
    if |fields| > 0 {
      assert g != fields[0] && g !in fields[1..];
      DeclareUnlisted(rules[fields[0] := Union(p, Stored(rules, fields[0]))], p, fields[1..], g);
    }
  }

  /** Declaring well-formed pairs keeps every field's rules well formed. */
  lemma {:induction false} DeclareWellFormed(rules: map<string, RuleSet>, p: RuleSet, fields: seq<string>)
    requires RulesWellFormed(rules) && Distinct(p)
    ensures RulesWellFormed(Declare(rules, p, fields))
    decreases |fields|
  {
    if |fields| > 0 {
      var u := Union(p, Stored(rules, fields[0]));
      assert Distinct(u);
      DeclareWellFormed(rules[fields[0] := u], p, fields[1..]);
    }
  }

  /**
    `addClassRules($decl, $f1, ..., $fn)`: each listed field's rules become the declared pairs
    followed by its old pairs whose rule the declaration does not name; the rules of every
    other field, and everything else, stay as they were.
  */
  function AddClassRules(v: Validator, d: RuleDecl, fields: seq<string>): (r: Validator)
    ensures r == v.(config := v.config.(rules := r.config.rules))
    ensures forall g :: g in fields ==>
              g in r.config.rules && r.config.rules[g] == Union(AsPairs(d), Stored(v.config.rules, g))
    ensures forall g :: g !in fields ==> (g in r.config.rules <==> g in v.config.rules)
    ensures forall g :: g !in fields && g in v.config.rules ==> r.config.rules[g] == v.config.rules[g]
    ensures RulesWellFormed(v.config.rules) && Distinct(AsPairs(d)) ==> RulesWellFormed(r.config.rules)
  {
    var rules := Declare(v.config.rules, AsPairs(d), fields);
    forall g | g in fields ensures g in rules && rules[g] == Union(AsPairs(d), Stored(v.config.rules, g)) {
      DeclareListed(v.config.rules, AsPairs(d), fields, g);
    }
    forall g | g !in fields ensures (g in rules <==> g in v.config.rules) && (g in v.config.rules ==> rules[g] == v.config.rules[g]) {
      DeclareUnlisted(v.config.rules, AsPairs(d), fields, g);
    }
    assert RulesWellFormed(v.config.rules) && Distinct(AsPairs(d)) ==> RulesWellFormed(rules) by {
      if RulesWellFormed(v.config.rules) && Distinct(AsPairs(d)) {
        DeclareWellFormed(v.config.rules, AsPairs(d), fields);
      }
    }
    v.(config := v.config.(rules := rules))
  }

  /** `addMethod($name, $handle, $message)`: registers the function and sets (or clears) the rule's message. */
  function AddMethod(v: Validator, name: string, handle: string, message: Option<string>): (r: Validator)
    ensures r.config.methods.Keys == v.config.methods.Keys + {name} && r.config.methods[name] == handle
    ensures forall n :: n in v.config.methods && n != name ==> r.config.methods[n] == v.config.methods[n]
    ensures message.Some? ==> name in r.config.messages && r.config.messages[name] == Plain(message.value)
    ensures message.None? ==> name !in r.config.messages
    ensures forall k :: k != name ==> (k in r.config.messages <==> k in v.config.messages)
    ensures forall k :: k != name && k in v.config.messages ==> r.config.messages[k] == v.config.messages[k]
    ensures r.config.rules == v.config.rules && r.config.invalidHandler == v.config.invalidHandler
    ensures r.values == v.values && r.errors == v.errors
  {
    var msgs := match message
      case Some(t) => v.config.messages[name := Plain(t)]
      case None => v.config.messages - {name};
    v.(config := v.config.(methods := v.config.methods[name := handle], messages := msgs))
  }

  /**
    A rule added under a new name is run through its function, and its failure is reported
    with the message given to `addMethod` (for a field without a message of its own).
  */
  lemma AddedMethodDecides(v: Validator, name: string, handle: string, t: string, field: string,
                           x: Value, p: Param, ctx: Context)
    requires name !in BuiltIns && field != name && field !in v.config.messages
    ensures Call(AddMethod(v, name, handle, Some(t)).config.methods, name, x, p, ctx) == ctx.functions(handle, x, p)
    ensures Template(AddMethod(v, name, handle, Some(t)).config.messages, field, name) == Plain(t)
  {
  }

  /** `extendMessages($m)`: the entries of `m` replace those of the catalog; nothing else changes. */
  function ExtendMessages(v: Validator, m: Catalog): (r: Validator)
    ensures r == v.(config := v.config.(messages := Extend(v.config.messages, m)))
    ensures forall field, rule :: field in m && m[field].Plain? ==> Template(r.config.messages, field, rule) == m[field]
  {
    v.(config := v.config.(messages := Extend(v.config.messages, m)))
  }

  // ---------------------------------------------------------------- construction

  /** A callable given as `invalidHandler`, and whether `is_callable` accepts it. */
  datatype Handler = Handler(name: string, callable: bool)

  /** The constructor's options; an absent option is an empty list, an empty catalog or `None`. */
  datatype Options = Options(rules: seq<(string, RuleDecl)>, messages: Catalog, invalidHandler: Option<Handler>)

  /** A validator before any option is applied. */
  const Initial: Validator := Validator(Config(map[], map[], DefaultCatalog, None), [], None)

  const NotCallableError: string := "Invalid option set for \"invalidHandler: not callable\""

  /** `addClassRules($decl, $field)` for every pair of the `rules` option, in order. */
  function AddAll(v: Validator, decls: seq<(string, RuleDecl)>): (r: Validator)
    ensures r == v.(config := v.config.(rules := r.config.rules))
    decreases |decls|
  {
    if |decls| == 0 then v
    else AddAll(AddClassRules(v, decls[0].1, [decls[0].0]), decls[1..])
  }

  /** Each field of a well-formed `rules` option gets its declaration, ahead of any rules it had. */
  lemma {:induction false} AddAllListed(v: Validator, decls: seq<(string, RuleDecl)>, i: int)
    requires Distinct(decls) && 0 <= i < |decls|
    ensures decls[i].0 in AddAll(v, decls).config.rules
    ensures AddAll(v, decls).config.rules[decls[i].0] == Union(AsPairs(decls[i].1), Stored(v.config.rules, decls[i].0))
    decreases |decls|
  {
    if i > 0 {
      var v1 := AddClassRules(v, decls[0].1, [decls[0].0]);
      var tail := decls[1..];
      var g := decls[i].0;
      assert tail[i - 1] == decls[i];
      assert g != decls[0].0;
      assert g !in [decls[0].0];
      assert Stored(v1.config.rules, g) == Stored(v.config.rules, g);
      assert Distinct(tail) by {
        forall a, b | 0 <= a < b < |tail| ensures tail[a].0 != tail[b].0 {
          assert tail[a] == decls[a + 1] && tail[b] == decls[b + 1];
        }
      }
      AddAllListed(v1, tail, i - 1);
    } else {
      AddAllHead(v, decls);
    }
  }

  /** The first field of a well-formed `rules` option is not redeclared by the rest. */
  lemma AddAllHead(v: Validator, decls: seq<(string, RuleDecl)>)
    requires Distinct(decls) && |decls| > 0
    ensures decls[0].0 in AddAll(v, decls).config.rules
    ensures AddAll(v, decls).config.rules[decls[0].0] == Union(AsPairs(decls[0].1), Stored(v.config.rules, decls[0].0))
  {
    var f := decls[0].0;
    var v1 := AddClassRules(v, decls[0].1, [f]);
    var tail := decls[1..];
    assert f in [f];
    assert v1.config.rules[f] == Union(AsPairs(decls[0].1), Stored(v.config.rules, f));
    forall j | 0 <= j < |tail| ensures tail[j].0 != f {
      assert tail[j] == decls[j + 1];
    }
    AddAllUnlisted(v1, tail, f);
  }

  /** A field the `rules` option does not mention keeps its rules, or keeps having none. */
  lemma {:induction false} AddAllUnlisted(v: Validator, decls: seq<(string, RuleDecl)>, g: string)
    requires g !in Keys(decls)
    ensures g in AddAll(v, decls).config.rules <==> g in v.config.rules
    ensures g in v.config.rules ==> AddAll(v, decls).config.rules[g] == v.config.rules[g]
    decreases |decls|
  {
    if |decls| > 0 {
      assert decls[0].0 in Keys(decls);
      assert g !in [decls[0].0];
      forall j | 0 <= j < |decls[1..]| ensures decls[1..][j].0 != g {
        assert decls[1..][j] == decls[j + 1];
      }
      AddAllUnlisted(AddClassRules(v, decls[0].1, [decls[0].0]), decls[1..], g);
    }
  }

  /**
    `new Validator($options)`: the declared rules per field, the default catalog extended by
    the `messages` option, and the handler; a handler that is not callable throws.
  */
  function New(opts: Options): (r: Result<Validator>)
    ensures r.Err? <==> opts.invalidHandler.Some? && !opts.invalidHandler.value.callable
    ensures r.Err? ==> r.error == NotCallableError
    ensures r.Ok? ==> r.value.config.methods == map[] && r.value.values == [] && r.value.errors == None
    ensures r.Ok? ==> r.value.config.messages == Extend(DefaultCatalog, opts.messages)
    ensures r.Ok? ==> r.value.config.invalidHandler == if opts.invalidHandler.Some? then Some(opts.invalidHandler.value.name) else None
    ensures r.Ok? ==> forall f :: f !in Keys(opts.rules) ==> f !in r.value.config.rules
    ensures r.Ok? && Distinct(opts.rules) ==>
              forall i :: 0 <= i < |opts.rules| ==>
                opts.rules[i].0 in r.value.config.rules && r.value.config.rules[opts.rules[i].0] == AsPairs(opts.rules[i].1)
  {
    var v1 := AddAll(Initial, opts.rules);
    forall f | f !in Keys(opts.rules) ensures f !in v1.config.rules {
      AddAllUnlisted(Initial, opts.rules, f);
    }
    assert Distinct(opts.rules) ==>
             forall i :: 0 <= i < |opts.rules| ==>
               opts.rules[i].0 in v1.config.rules && v1.config.rules[opts.rules[i].0] == AsPairs(opts.rules[i].1) by {
      if Distinct(opts.rules) {
        forall i | 0 <= i < |opts.rules|
          ensures opts.rules[i].0 in v1.config.rules && v1.config.rules[opts.rules[i].0] == AsPairs(opts.rules[i].1)
        {
          AddAllListed(Initial, opts.rules, i);
          UnionEmpty(AsPairs(opts.rules[i].1));
        }
      }
    }
    var v2 := ExtendMessages(v1, opts.messages);
    match opts.invalidHandler
    case Some(h) =>
      if h.callable then Ok(v2.(config := v2.config.(invalidHandler := Some(h.name)))) else Err(NotCallableError)
    case None => Ok(v2)
  }

  // ---------------------------------------------------------------- reading the configuration

  /** The parameter of the field's `required` rule, when it has one that `isset` accepts (not null). */
  function RequiredParam(rs: RuleSet): (r: Option<Param>)
    ensures Distinct(rs) ==>
              (r.Some? <==> exists i :: 0 <= i < |rs| && rs[i].0 == "required" && !rs[i].1.Null?)
    ensures r.Some? ==> !r.value.Null? && Get(rs, "required") == Some(r.value)
  {
    match Get(rs, "required")
    case Some(p) =>
      if p.Null? then
        assert Distinct(rs) ==> forall i :: 0 <= i < |rs| && rs[i].0 == "required" ==> rs[i].1.Null? by {
          if Distinct(rs) {
            forall i | 0 <= i < |rs| && rs[i].0 == "required" ensures rs[i].1.Null? {
              GetDistinct(rs, i);
            }
          }
        }
        None
      else
        assert "required" in Keys(rs);
        var i :| 0 <= i < |rs| && rs[i].0 == "required";
        assert Distinct(rs) ==> rs[i].1 == p by {
          if Distinct(rs) { GetDistinct(rs, i); }
        }
        Some(p)
    case None =>
      assert forall i :: 0 <= i < |rs| ==> rs[i].0 != "required" by {
        forall i | 0 <= i < |rs| ensures rs[i].0 != "required" {
          assert rs[i].0 in Keys(rs);
        }
      }
      None
  }

  /** `optional($f)`: the field has no rule set, or its set has no non-null `required` rule. */
  function Optional(c: Config, f: string): (r: bool)
    ensures f !in c.rules ==> r
    ensures f in c.rules && Distinct(c.rules[f]) ==>
              (r <==> forall i :: 0 <= i < |c.rules[f]| && c.rules[f][i].0 == "required" ==> c.rules[f][i].1.Null?)
  {
    !(f in c.rules && RequiredParam(c.rules[f]).Some?)
  }

  /** Declaring a field required (with any non-null parameter) makes it non-optional, whatever came before. */
  lemma DeclaringRequiredMakesMandatory(v: Validator, f: string, p: Param, rest: RuleSet)
    requires !p.Null?
    ensures !Optional(AddClassRules(v, Pairs([("required", p)] + rest), [f]).config, f)
  {
    var d := Pairs([("required", p)] + rest);
    var rs := AddClassRules(v, d, [f]).config.rules[f];
    assert rs == Union(AsPairs(d), Stored(v.config.rules, f));
    assert rs[0] == ("required", p);
    assert Get(rs, "required") == Some(p);
  }

  // ---------------------------------------------------------------- element

  /**
    The position of the first rule in `rs` that `holds` rejects, if any. Rules are tried in
    order, so every rule before that position is accepted.
  */
  function FirstFailure<R>(rs: seq<R>, holds: R -> bool): (r: Option<nat>)
    ensures r.Some? ==> r.value < |rs| && !holds(rs[r.value])
    ensures r.Some? ==> forall j :: 0 <= j < r.value ==> holds(rs[j])
    ensures r.None? <==> forall j :: 0 <= j < |rs| ==> holds(rs[j])
    decreases |rs|
  {
    if |rs| == 0 then None
    else if !holds(rs[0]) then Some(0)
    else
      match FirstFailure(rs[1..], holds)
      case Some(k) =>
        assert rs[k + 1] == rs[1..][k];
        assert forall j :: 1 <= j < k + 1 ==> rs[j] == rs[1..][j - 1];
        Some(k + 1)
      case None =>
        assert forall j :: 1 <= j < |rs| ==> rs[j] == rs[1..][j - 1];
        None
  }

  /** The rules after the first failing one are never looked at: replacing them changes nothing. */
  lemma {:induction false} FirstFailureIgnoresLater<R>(rs: seq<R>, later: seq<R>, holds: R -> bool, i: nat)
    requires FirstFailure(rs, holds) == Some(i)
    ensures FirstFailure(rs[..i + 1] + later, holds) == Some(i)
  {
    var t := rs[..i + 1] + later;
    assert t[0] == rs[0];
    if i > 0 {
      assert t[1..] == rs[1..][..i] + later;
      assert FirstFailure(rs[1..], holds) == Some(i - 1);
      FirstFailureIgnoresLater(rs[1..], later, holds, i - 1);
    }
  }

  /** The check `element` applies to each rule of a field: the collection's verdict on the value. */
  function Holds(methods: map<string, string>, x: Value, ctx: Context): ((string, Param)) -> bool {
    (rule: (string, Param)) => Call(methods, rule.0, x, rule.1, ctx)
  }

  /** Whether `element($f, $x)` returns true. */
  predicate Passes(c: Config, f: string, x: Value, ctx: Context) {
    f !in c.rules || (Empty(x) && Optional(c, f)) || FirstFailure(c.rules[f], Holds(c.methods, x, ctx)).None?
  }

  /** The message `element` records for a failing field. */
  function ErrorFor(c: Config, f: string, x: Value, ctx: Context): Message
    requires !Passes(c, f, x, ctx)
  {
    var i := FirstFailure(c.rules[f], Holds(c.methods, x, ctx)).value;
    GetMessage(c.messages, f, c.rules[f][i].0, c.rules[f][i].1)
  }

  /**
    A field passes when it has no rules, or its value is empty and the field optional (every
    rule is skipped), or the value passes every one of its rules; otherwise it fails.
  */
  lemma PassesExactly(c: Config, f: string, x: Value, ctx: Context)
    ensures Passes(c, f, x, ctx) <==>
              (f !in c.rules || (Empty(x) && Optional(c, f)) ||
               forall j :: 0 <= j < |c.rules[f]| ==> Call(c.methods, c.rules[f][j].0, x, c.rules[f][j].1, ctx))
  {
    if f in c.rules {
      var rs := c.rules[f];
      assert forall j :: 0 <= j < |rs| ==> Holds(c.methods, x, ctx)(rs[j]) == Call(c.methods, rs[j].0, x, rs[j].1, ctx);
    }
  }

  /**
    A failing field is reported with the message of the first rule its value fails: every
    rule before that one passes.
  */
  lemma ErrorForFirstFailure(c: Config, f: string, x: Value, ctx: Context)
    requires !Passes(c, f, x, ctx)
    ensures f in c.rules
    ensures var rs := c.rules[f];
            exists i :: (0 <= i < |rs| && !Call(c.methods, rs[i].0, x, rs[i].1, ctx) &&
              (forall j :: 0 <= j < i ==> Call(c.methods, rs[j].0, x, rs[j].1, ctx)) &&
              ErrorFor(c, f, x, ctx) == GetMessage(c.messages, f, rs[i].0, rs[i].1))
  {
    var rs := c.rules[f];
    var i := FirstFailure(rs, Holds(c.methods, x, ctx)).value;
    assert forall j :: 0 <= j < i ==> Holds(c.methods, x, ctx)(rs[j]);
    assert forall j :: 0 <= j < i ==> Call(c.methods, rs[j].0, x, rs[j].1, ctx);
    assert !Call(c.methods, rs[i].0, x, rs[i].1, ctx);
  }

  /** What `element` returns, and the validator after it. */
  datatype Step = Step(ok: bool, after: Validator)

  /**
    `element($f, $x)`: runs the field's rules in order until one fails. A failure records the
    failed rule's message under `f` and returns false; success returns true and leaves the
    error map as it was (an older entry for `f` stays). A null error map becomes empty.
  */
  function Element(v: Validator, f: string, x: Value, ctx: Context): (s: Step)
    ensures s.after == v.(errors := s.after.errors) && s.after.errors.Some?
    ensures s.ok == Passes(v.config, f, x, ctx)
    ensures s.ok <==>
              (f !in v.config.rules || (Empty(x) && Optional(v.config, f)) ||
               forall j :: 0 <= j < |v.config.rules[f]| ==>
                 Call(v.config.methods, v.config.rules[f][j].0, x, v.config.rules[f][j].1, ctx))
    ensures s.ok ==> s.after.errors.value == v.errors.GetOr(map[])
    ensures !s.ok ==> s.after.errors.value == v.errors.GetOr(map[])[f := ErrorFor(v.config, f, x, ctx)]
    ensures !s.ok ==>
              var rs := v.config.rules[f];
              exists i :: (0 <= i < |rs| && !Call(v.config.methods, rs[i].0, x, rs[i].1, ctx) &&
                (forall j :: 0 <= j < i ==> Call(v.config.methods, rs[j].0, x, rs[j].1, ctx)) &&
                s.after.errors.value[f] == GetMessage(v.config.messages, f, rs[i].0, rs[i].1))
  {
    var errs := v.errors.GetOr(map[]);
    PassesExactly(v.config, f, x, ctx);
    if Passes(v.config, f, x, ctx) then Step(true, v.(errors := Some(errs)))
    else
      ErrorForFirstFailure(v.config, f, x, ctx);
      Step(false, v.(errors := Some(errs[f := ErrorFor(v.config, f, x, ctx)])))
  }

  /** An empty value of an optional field passes without any rule being consulted. */
  lemma EmptyOptionalSkipsRules(v: Validator, f: string, x: Value, ctx: Context, ctx2: Context)
    requires Empty(x) && Optional(v.config, f)
    ensures Element(v, f, x, ctx).ok && Element(v, f, x, ctx) == Element(v, f, x, ctx2)
  {
  }

  /**
    For a non-empty value, changing the rules after the first failing one changes neither the
    verdict nor the recorded message.
  */
  lemma ElementStopsAtFirstFailure(v: Validator, f: string, x: Value, ctx: Context, later: RuleSet, i: nat)
    requires f in v.config.rules && !Empty(x)
    requires FirstFailure(v.config.rules[f], Holds(v.config.methods, x, ctx)) == Some(i)
    ensures var w := v.(config := v.config.(rules := v.config.rules[f := v.config.rules[f][..i + 1] + later]));
            !Element(w, f, x, ctx).ok && Element(w, f, x, ctx).after.errors == Element(v, f, x, ctx).after.errors
  {
    var c := v.config;
    var rs := c.rules[f];
    var rs2 := rs[..i + 1] + later;
    var c2 := c.(rules := c.rules[f := rs2]);
    FirstFailureIgnoresLater(rs, later, Holds(c.methods, x, ctx), i);
    assert FirstFailure(c2.rules[f], Holds(c2.methods, x, ctx)) == Some(i);
    assert rs2[i] == rs[i];
    assert !Passes(c, f, x, ctx) && !Passes(c2, f, x, ctx);
    assert ErrorFor(c2, f, x, ctx) == ErrorFor(c, f, x, ctx);
  }

  // ---------------------------------------------------------------- validate

  /** The submitted fields whose value fails its rules. */
  function Failed(c: Config, vals: seq<(string, Value)>, ctx: Context): set<string> {
    set i | 0 <= i < |vals| && !Passes(c, vals[i].0, vals[i].1, ctx) :: vals[i].0
  }

  /** Only submitted fields can fail. */
  lemma FailedWereSubmitted(c: Config, vals: seq<(string, Value)>, ctx: Context)
    ensures Failed(c, vals, ctx) <= Keys(vals)
  {
    forall k | k in Failed(c, vals, ctx) ensures k in Keys(vals) {
      var i :| 0 <= i < |vals| && !Passes(c, vals[i].0, vals[i].1, ctx) && vals[i].0 == k;
    }
  }

  /** The fields with a (non-null) `required` rule that were not submitted. */
  function MissingRequired(c: Config, vals: seq<(string, Value)>): set<string> {
    set f | f in c.rules && f !in Keys(vals) && RequiredParam(c.rules[f]).Some?
  }

  /** `element` for every submitted pair, in order: the first loop of `validate`. */
  function RunElements(v: Validator, vals: seq<(string, Value)>, ctx: Context): (r: Validator)
    requires v.errors.Some?
    ensures r == v.(errors := r.errors) && r.errors.Some?
    decreases |vals|
  {
    if |vals| == 0 then v
    else RunElements(Element(v, vals[0].0, vals[0].1, ctx).after, vals[1..], ctx)
  }

  /** The loop leaves the entry of a field that was not submitted as it was. */
  lemma {:induction false} RunElementsUnlisted(v: Validator, vals: seq<(string, Value)>, ctx: Context, k: string)
    requires v.errors.Some? && k !in Keys(vals)
    ensures k in RunElements(v, vals, ctx).errors.value <==> k in v.errors.value
    ensures k in v.errors.value ==> RunElements(v, vals, ctx).errors.value[k] == v.errors.value[k]
    decreases |vals|
  {
    if |vals| > 0 {
      assert vals[0].0 in Keys(vals);
      var tail := vals[1..];
      forall j | 0 <= j < |tail| ensures tail[j].0 != k {
        assert tail[j] == vals[j + 1];
        assert vals[j + 1].0 in Keys(vals);
      }
      RunElementsUnlisted(Element(v, vals[0].0, vals[0].1, ctx).after, tail, ctx, k);
    }
  }

  /**
    For a submitted field, the loop records the message of its first failing rule when it
    fails, and leaves its entry as it was when it passes.
  */
  lemma {:induction false} RunElementsListed(v: Validator, vals: seq<(string, Value)>, ctx: Context, i: int)
    requires v.errors.Some? && Distinct(vals) && 0 <= i < |vals|
    ensures var e := RunElements(v, vals, ctx).errors.value;
            !Passes(v.config, vals[i].0, vals[i].1, ctx) ==>
              vals[i].0 in e && e[vals[i].0] == ErrorFor(v.config, vals[i].0, vals[i].1, ctx)
    ensures var e := RunElements(v, vals, ctx).errors.value;
            Passes(v.config, vals[i].0, vals[i].1, ctx) ==>
              (vals[i].0 in e <==> vals[i].0 in v.errors.value) &&
              (vals[i].0 in v.errors.value ==> e[vals[i].0] == v.errors.value[vals[i].0])
    decreases |vals|
  {
    var v1 := Element(v, vals[0].0, vals[0].1, ctx).after;
    var tail := vals[1..];
    if i > 0 {
      assert tail[i - 1] == vals[i];
      assert vals[i].0 != vals[0].0;
      assert Distinct(tail) by {
        forall a, b | 0 <= a < b < |tail| ensures tail[a].0 != tail[b].0 {
          assert tail[a] == vals[a + 1] && tail[b] == vals[b + 1];
        }
      }
      RunElementsListed(v1, tail, ctx, i - 1);
    } else {
      forall j | 0 <= j < |tail| ensures tail[j].0 != vals[0].0 {
        assert tail[j] == vals[j + 1];
      }
      RunElementsUnlisted(v1, tail, ctx, vals[0].0);
    }
  }

  /** From an empty error map, the loop records exactly the failing submitted fields. */
  lemma RunElementsFromEmpty(c: Config, vals: seq<(string, Value)>, ctx: Context)
    requires Distinct(vals)
    ensures var e := RunElements(Validator(c, vals, Some(map[])), vals, ctx).errors.value;
            e.Keys == Failed(c, vals, ctx) &&
            forall i :: 0 <= i < |vals| && !Passes(c, vals[i].0, vals[i].1, ctx) ==>
              e[vals[i].0] == ErrorFor(c, vals[i].0, vals[i].1, ctx)
  {
    var v0 := Validator(c, vals, Some(map[]));
    var e := RunElements(v0, vals, ctx).errors.value;
    forall i | 0 <= i < |vals|
      ensures !Passes(c, vals[i].0, vals[i].1, ctx) ==> vals[i].0 in e && e[vals[i].0] == ErrorFor(c, vals[i].0, vals[i].1, ctx)
      ensures Passes(c, vals[i].0, vals[i].1, ctx) ==> vals[i].0 !in e
    {
      RunElementsListed(v0, vals, ctx, i);
    }
    forall k | k in e ensures k in Failed(c, vals, ctx) {
      if k !in Keys(vals) {
        RunElementsUnlisted(v0, vals, ctx, k);
      }
      var i :| 0 <= i < |vals| && vals[i].0 == k;
    }
  }

  /** The result of `validate`: the validator afterwards, the map returned, and whether the handler ran. */
  datatype Outcome = Outcome(after: Validator, returned: map<string, Message>, handled: bool)

  /**
    `validate($values)`: stores the values, resets the error map, runs `element` on every
    submitted field, then records the `required` message for every required field that was
    not submitted. The error map is returned and the invalid handler, when set, is called.
  */
  function Validate(v: Validator, values: seq<(string, Value)>, ctx: Context): (o: Outcome)
    requires Distinct(values)
    ensures o.after == Validator(v.config, values, Some(o.returned))
    ensures o.returned.Keys == Failed(v.config, values, ctx) + MissingRequired(v.config, values)
    ensures Failed(v.config, values, ctx) !! MissingRequired(v.config, values)
    ensures forall i :: 0 <= i < |values| && !Passes(v.config, values[i].0, values[i].1, ctx) ==>
              o.returned[values[i].0] == ErrorFor(v.config, values[i].0, values[i].1, ctx)
    ensures forall f :: f in MissingRequired(v.config, values) ==>
              o.returned[f] == GetMessage(v.config.messages, f, "required", RequiredParam(v.config.rules[f]).value)
    ensures o.handled <==> v.config.invalidHandler.Some?
  {
    var c := v.config;
    var e := RunElements(Validator(c, values, Some(map[])), values, ctx).errors.value;
    RunElementsFromEmpty(c, values, ctx);
    FailedWereSubmitted(c, values, ctx);
    var swept := map f | f in MissingRequired(c, values) :: GetMessage(c.messages, f, "required", RequiredParam(c.rules[f]).value);
    var errs := e + swept;
    Outcome(Validator(c, values, Some(errs)), errs, c.invalidHandler.Some?)
  }

  /** Validating the same values again with the same configuration gives the same result. */
  lemma ValidateIdempotent(v: Validator, values: seq<(string, Value)>, ctx: Context)
    requires Distinct(values)
    ensures Validate(Validate(v, values, ctx).after, values, ctx) == Validate(v, values, ctx)
  {
  }

  /**
    A required field that was not submitted, and that has no message of its own in a catalog
    built from the default one, reports the default `required` message.
  */
  lemma MissingFieldGetsDefaultMessage(v: Validator, m: Catalog, values: seq<(string, Value)>, ctx: Context, f: string)
    requires Distinct(values) && v.config.messages == Extend(DefaultCatalog, m)
    requires f in MissingRequired(v.config, values)
    requires f != "required" && f !in m && "required" !in m
    ensures Validate(v, values, ctx).returned[f] == Plain("This is a required field")
  {
    var p := RequiredParam(v.config.rules[f]).value;
    assert Template(v.config.messages, f, "required") == Template(DefaultCatalog, f, "required");
    DefaultRequiredMessage(f, p);
  }

  // ---------------------------------------------------------------- readers

  /** `numberOfInvalids()`: the size of the error map; `count(null)` is 0. */
  function NumberOfInvalids(v: Validator): (n: nat)
    ensures v.errors.None? ==> n == 0
    ensures v.errors.Some? ==> n == |v.errors.value.Keys|
  {
    match v.errors
    case None => 0
    case Some(e) => |e|
  }

  /** `valid()`: no run has recorded an error map yet, or the map is empty. */
  function Valid(v: Validator): (r: bool)
    ensures r <==> NumberOfInvalids(v) == 0
    ensures r <==> v.errors.None? || v.errors.value == map[]
  {
    match v.errors
    case None => true
    case Some(e) =>
      |e| == 0
  }

  /** After a run the number of invalid fields counts failed submissions plus missing required fields. */
  lemma ValidAfterValidate(v: Validator, values: seq<(string, Value)>, ctx: Context)
    requires Distinct(values)
    ensures NumberOfInvalids(Validate(v, values, ctx).after) ==
            |Failed(v.config, values, ctx)| + |MissingRequired(v.config, values)|
    ensures Valid(Validate(v, values, ctx).after) <==>
            Failed(v.config, values, ctx) == {} && MissingRequired(v.config, values) == {}
  {
    var o := Validate(v, values, ctx);
    var a := Failed(v.config, values, ctx);
    var b := MissingRequired(v.config, values);
    assert a * b == {};
    assert |o.returned.Keys| == |a + b|;
  }

  /** `showValid($f)`: the submitted value of a field without an error entry, else "". */
  function ShowValid(v: Validator, f: string): (r: Value)
    ensures v.errors.Some? && f in v.errors.value ==> r == Str("")
    ensures !(v.errors.Some? && f in v.errors.value) && f in Keys(v.values) ==> Some(r) == Get(v.values, f)
    ensures f !in Keys(v.values) ==> r == Str("")
  {
    if v.errors.Some? && f in v.errors.value then Str("")
    else
      match Get(v.values, f)
      case Some(x) => x
      case None => Str("")
  }

  /** After a run, a submitted field is echoed back exactly when it passed its rules. */
  lemma ShowValidAfterValidate(v: Validator, values: seq<(string, Value)>, ctx: Context, i: int)
    requires Distinct(values) && 0 <= i < |values|
    ensures var a := Validate(v, values, ctx).after;
            ShowValid(a, values[i].0) == if Passes(v.config, values[i].0, values[i].1, ctx) then values[i].1 else Str("")
  {
    var o := Validate(v, values, ctx);
    var f := values[i].0;
    GetDistinct(values, i);
    assert f in Keys(values);
    assert f !in MissingRequired(v.config, values);
    if Passes(v.config, f, values[i].1, ctx) {
      forall j | 0 <= j < |values| && values[j].0 == f ensures Passes(v.config, values[j].0, values[j].1, ctx) {
        assert j == i;
      }
    }
  }
}

=== FILE: values.dfy ===
/** The PHP values the validator handles: submitted field values and rule parameters. */
module Values {
  import opened Common
  import opened PhpText

  /**
    A submitted field value. Form data arrives as strings, integers come from other arrays
    such as database rows, and a group of checkboxes named `box[]` arrives as a list.
  */
  datatype Value = Str(s: string) | Int(i: int) | List(items: seq<string>)

  /**
    A rule parameter as declared for one field. `Null` is kept apart because `isset()` is
    false for it; a bare rule name is stored with the empty list `array()`; a callable that
    takes no arguments is represented by the boolean it returns.
  */
  datatype Param =
    | Null
    | PStr(s: string)
    | PInt(n: int)
    | PBool(b: bool)
    | PList(items: seq<Value>)
    | Pred(result: bool)

  /** PHP's `empty()` on a value: true for "", "0", 0 and the empty list. */
  function Empty(v: Value): (r: bool)
    ensures r <==> v == Str("") || v == Str("0") || v == Int(0) || v == List([])
  {
    match v
    case Str(s) => s == "" || s == "0"
    case Int(i) => i == 0
    case List(xs) => |xs| == 0
  }

  /** An integer is empty exactly when its decimal text is: `empty` agrees on a number and its string form. */
  lemma EmptyAgreesWithText(n: int)
    ensures Empty(Int(n)) <==> Empty(Str(Text(Int(n))))
  {
    var d := Decimal(n);
    if d == "0" {
      assert NumericValue("0") == 0;
    }
    if n == 0 {
      assert Digits(0) == "0";
    }
  }

  /** PHP's conversion of a value to a string: an integer's decimal text, "Array" for a list. */
  function Text(v: Value): string {
    match v
    case Str(s) => s
    case Int(i) => Decimal(i)
    case List(_) => "Array"
  }

  /** The integer a value denotes when `is_numeric` accepts it. */
  function Number(v: Value): Option<int> {
    match v
    case Int(i) => Some(i)
    case Str(s) => if IsNumeric(s) then Some(NumericValue(s)) else None
    case List(_) => None
  }

  /** The integer a parameter denotes when it is a number or a numeric string. */
  function ParamNumber(p: Param): Option<int> {
    match p
    case PInt(n) => Some(n)
    case PStr(s) => if IsNumeric(s) then Some(NumericValue(s)) else None
    case _ => None
  }
}
